=== FILE: README.md ===
# Temperature and humidity monitoring — a Dafny model

This project models the core of an ESP32 temperature and humidity monitor, and proves properties of that model. The system has four parts:

- **Firmware.** An ESP32 with a DHT11 sensor reads the temperature and humidity.
- **Device status and upload.** The firmware computes its own status label and POSTs the reading as JSON.
- **Flask API.** It validates each reading, classifies it against configurable alert and critical bands, and stores it in a MongoDB collection. It also answers paginated, date-filtered queries and summary statistics.
- **Report helpers.** Pandas helpers compute per-period reports.

The modules follow the program's structure:

| module | file | models |
|---|---|---|
| `Wrappers` | wrappers.dfy | `Option` and `Result` |
| `PyValue` | pyvalue.dfy | the Python values a JSON body or a DataFrame cell can hold: IEEE floats with NaN and infinities, `float()`, `pd.isna`, truthiness, and NaN-aware comparisons |
| `Config` | config.dfy | the thresholds and their defaults, `validar_configuracao`, the limit getters, the three profiles and `get_config` |
| `Status` | status.dfy | `determinar_status` as written and corrected, and its labels |
| `SensorValidation` | validator.dfy | `validar_dados_sensor` as written and corrected |
| `Device` | device.dfy | the firmware's NaN screen, `determineDeviceStatus`, and which of its two payloads it sends (the payloads' JSON bodies, `Ingest.DevicePayload`, live in `Ingest` with the lemmas that feed them to the endpoints) |
| `Store` | store.dfy | the collection, its `timestamp`-descending order, date windows and filtering |
| `IsoTime` | isotime.dfy | the `'Z'` → `"+00:00"` rewrite applied before every ISO date parse |
| `Ingest` | ingest.dfy | `POST /data` of backend/main.py and of the legacy backend/app.py |
| `Query` | query.dfy | `GET /data` of both back ends: filters, sort, skip, limit and pagination |
| `Stats` | stats.dfy | `GET /stats` of both back ends: aggregates and the status histogram |
| `Report` | report.dfy | `calcular_estatisticas` and `gerar_relatorio_periodo` |

Values that come from outside the model are parameters:
- Text parsing is an oracle: `float()` on a string is a `string -> Option<Float>`, and `datetime.fromisoformat` is a `string -> Option<int>`.
- The clock (`now`, in seconds) is a parameter.
- The database is a value: `Offline`, or `Online` with a sequence of documents in insertion order.

Each endpoint returns either a response with its HTTP code or an error variant; `HttpCode` maps each error variant to its status code.

Two behaviours of the code that a reader might not expect:
- An invalid configuration does not stop the API. At backend/main.py:16-21 the errors are only printed, so nothing in the model depends on `Config.Validate` passing.
- Documents with equal timestamps have no guaranteed order: MongoDB promises nothing about ties for `sort('timestamp', -1)` (backend/main.py:145). The model's sort returns one of the orders the store may return. `Store.SortedOrderUnique` shows that without ties there is only one such order. `Query.TiesBreakPagination` shows that with ties, two page requests may see different orders.

## Model

| member | source | states |
|---|---|---|
| `PyValue.ToFloat` | backend/utils.py:26-27 | `float()` returns a number unchanged, raises TypeError exactly for None and containers, and raises ValueError only for text |
| `PyValue.WithinMeansNeitherBelowNorAbove` | backend/main.py:77-81 | for any value but NaN, the chained `lo <= x <= hi` agrees with `not (x < lo or x > hi)` |
| `Config.BandErrors` | backend/config.py:68-78 | one message per band whose `critical < alert` ordering fails, in check order; a message appears iff its band check fails, and there are never more than four |
| `Config.EmailErrors` | backend/config.py:80-86 | no e-mail messages while e-mail is disabled; once enabled, each of username, password and recipients is reported iff it is empty (recipients `[]` or `[""]`) |
| `Config.Validate` | backend/config.py:63-88 | messages come in the fixed order of the seven checks, at most seven |
| `Config.NoBandErrorIff` | backend/config.py:68-78 | the validation reports no band message iff all four bands are strictly ordered |
| `Config.EqualBoundsAreErrors` | backend/config.py:68-78 | equal critical and alert bounds are rejected, because the checks use `>=` |
| `Config.EmailDisabledOnlyBandsMatter` | backend/config.py:80-86 | with e-mail disabled, the outcome depends on the bands alone |
| `Config.EmptyAlertIntervalPasses` | backend/config.py:68-78 | an alert band with min above max (an empty interval) passes validation, since only critical-versus-alert order is checked |
| `Config.DefaultsValid` | backend/config.py:24-32 | the default thresholds (5/30/0/40 °C, 20/90/10/95 %) pass validation and are strictly ordered |
| `Config.LimitsRoundTrip` | backend/config.py:47-61 | the two limit dictionaries expose all eight thresholds, each under its own key, and rebuild them exactly |
| `Config.AsciiLower` | backend/config.py:108 | lower-casing keeps the length, maps each upper-case letter to its lower-case letter and leaves every other character alone |
| `Config.GetConfig` | backend/config.py:106-115 | production iff the lower-cased `FLASK_ENV` (default "development") is "production", testing iff it is "testing", development otherwise |
| `Config.GetConfigRoundTrip` | backend/config.py:90-115 | each profile's own name selects that profile, and an unset variable selects development |
| `Status.LabelRoundTrip` | backend/utils.py:290-308 | the seven status labels are distinct and read back to the status they name |
| `Status.ClassifyAsWritten` | backend/utils.py:10-49 | as written, `erro_leitura` only arises from a missing value or a failed `float()` |
| `Status.Classify` | backend/utils.py:22-27 | corrected: a value that converts to NaN is a reading error |
| `Status.ReadingErrorIff` | backend/utils.py:22-49 | the corrected classifier says `erro_leitura` exactly when a value is missing, unconvertible or NaN; the as-written one says it at least when a value is missing or unconvertible; neither raises |
| `Status.PhysicalRangeFirst` | backend/utils.py:29-33 | for numeric readings, `erro_sensor` exactly when temperature is outside [-50, 100] or humidity outside [0, 100] |
| `Status.TemperatureDecidedFirst` | backend/utils.py:35-43 | a plausible reading outside the critical temperature band is `critico_temperatura` whatever the humidity; a humidity label implies the temperature lies in both temperature bands |
| `Status.NormalIff` | backend/utils.py:29-45 | with ordered bands, `normal` exactly when both values are physically plausible and inside their alert bands |
| `Status.AsWrittenAgreesUnlessTextNaN` | backend/utils.py:22-27 | the code as written and the corrected classifier differ only when `float()` produces a NaN that `pd.isna` did not see |
| `Status.TextNaNIsNormalAsWritten` | backend/utils.py:22-45 | the text "nan" with 50 % humidity is `normal` as written and `erro_leitura` once corrected |
| `Status.BoundsFallInMilderBand` | backend/utils.py:35-43 | with the defaults, boundary values take the milder label (40 °C and 95 % are alerts), 45 °C is critical, 150 °C a sensor error, NaN a reading error |
| `Status.CriticalBoundIsNotCritical` | backend/utils.py:35-36 | a temperature equal to a critical bound is never `critico_temperatura`, because the comparisons are strict |
| `SensorValidation.ValidateAsWritten` | backend/utils.py:51-78 | as written, "not numeric" exactly when either `float()` fails |
| `SensorValidation.Validate` | backend/utils.py:62-75 | corrected: a valid pair consists of two finite numbers inside [-50, 100] and [0, 100] |
| `SensorValidation.RejectionOrder` | backend/utils.py:62-78 | rejections come in source order (numeric, temperature range, humidity range), and "both zero" exactly when both values are 0 |
| `SensorValidation.ValidIff` | backend/utils.py:62-75 | valid exactly when both convert, both lie in their physical ranges and they are not both zero |
| `SensorValidation.AsWrittenAgreesWithoutNaN` | backend/utils.py:66-70 | without a NaN, the as-written and corrected validators agree on every input |
| `SensorValidation.NaNAcceptedAsWritten` | backend/utils.py:66-75 | as written, NaN with 50 % humidity is "Dados válidos"; corrected, it is a temperature out of range |
| `SensorValidation.ValidNeverAnErrorStatus` | backend/utils.py:29-70 | a pair the validator accepts is never classified `erro_sensor` or `erro_leitura` |
| `Device.DeviceStatus` | esp32/src/main.cpp:129-135 | the device's label is never one of the two error labels |
| `Device.ReadSensorAndSend` | esp32/src/main.cpp:102-112 | the device sends the `erro_sensor` report iff either reading is NaN, and a measurement never carries a NaN |
| `Device.DeviceAgreesWithServer` | esp32/src/main.cpp:129-135 | with the defaults and for physically plausible values (-50 to 100 °C, 0 to 100 %), device and server disagree exactly when the temperature is in alert but not critical and the humidity is critical; the device then says `critico_umidade` and the server says `alerta_temperatura` |
| `Device.DevicePriorityExamples` | esp32/src/main.cpp:129-135 | critical humidity outranks a temperature alert on the device; bounds are not critical; 150 °C is only "critical" |
| `Store.Insert` | backend/main.py:145 | a step of `SortNewestFirst`, the model's reading of `sort('timestamp', -1)`: inserting into a sorted run adds exactly that document and loses none |
| `Store.InsertElements` | backend/main.py:145 | a step of `SortNewestFirst`: every element after insertion was either already present or is the new document |
| `Store.InsertKeepsOrder` | backend/main.py:145 | a step of `SortNewestFirst`: insertion keeps a newest-first sequence newest-first |
| `Store.SortNewestFirst` | backend/main.py:145 | `sort('timestamp', -1)` yields a newest-first permutation of its input |
| `Store.Filter` | backend/main.py:124-145 | a filtered view holds exactly the accepted documents, each as many times as the collection holds it |
| `Store.FilterConcat` | backend/main.py:124-145 | filtering keeps store order: what it keeps from an earlier stretch comes before what it keeps from a later one |
| `Store.SortedOrderUnique` | backend/main.py:145 | when no two different documents share a timestamp, a collection has exactly one newest-first order |
| `Store.TieFreePermutation` | backend/main.py:145 | whether documents tie depends only on which documents there are, not on their order |
| `Store.CopiesTie` | backend/main.py:145-149 | two copies of one reading tie, so the store may list either first |
| `Store.TiesHaveTwoOrders` | backend/main.py:145 | two different documents with the same timestamp can be listed in either order, and both orders are newest first |
| `Store.Count` | backend/main.py:154 | `count_documents` counts exactly the documents `find` returns before skip and limit |
| `Store.FilterAppend` | backend/main.py:96 | a new document changes a filtered view only by itself, at the end |
| `IsoTime.ReplaceZ` | backend/main.py:88 | after the rewrite no `'Z'` remains, each `'Z'` adds five characters, and a string without `'Z'` is unchanged |
| `IsoTime.ReplaceZIdempotent` | backend/main.py:88 | rewriting twice is the same as rewriting once |
| `IsoTime.ReplaceZAppend` | backend/main.py:88 | the rewrite works character by character, so it distributes over concatenation |
| `IsoTime.TrailingZBecomesOffset` | esp32/src/main.cpp:153 | the device's `...Z` timestamp becomes the same text ending in `+00:00` |
| `Ingest.ResolveStamp` | backend/main.py:85-92 | an absent or falsy timestamp becomes "now"; non-empty text is rejected iff it does not parse after the `'Z'` rewrite, and otherwise becomes the parsed date; any other truthy value is stored as it is (not a date) |
| `Ingest.ReceiveData` | backend/main.py:57-112 | a rejected request leaves the collection unchanged; an accepted one appends exactly the returned document |
| `Ingest.StoredReadingIsClassified` | backend/main.py:73-96 | a stored reading holds the converted values, both in physical range, the timestamp the payload's `timestamp` resolves to, and the status the classifier gives the values, which is never an error label |
| `Ingest.CheckOrder` | backend/main.py:59-90 | each error arises exactly when every earlier check passed and its own check fails, in source order (store, empty body, `temperatura`, `umidade`, conversion, temperature range, humidity range, timestamp); a request is stored iff it passes them all; in the model no request reaches the 500 path, because insert failures are not modelled |
| `Ingest.NaNRejectedAsOutOfRange` | backend/main.py:77-81 | the chained comparison rejects NaN temperature and infinite humidity as out of range |
| `Ingest.ConversionBeforeRange` | backend/main.py:73-83 | both values are converted before either range is checked, so an out-of-range temperature next to a null humidity is "not numeric" |
| `Ingest.LegacyReceiveData` | backend/app.py:18-59 | legacy ingestion stores only on success, stamps the document with "now" and keeps the sender's status |
| `Ingest.LegacyCheckOrder` | backend/app.py:21-46 | each legacy error arises exactly when the earlier checks passed and its own fails: a null body or a TypeError from `float()` (a null or a container) is a 500, a ValueError is a 400, the temperature converts before the humidity, and a request is stored iff both values convert and lie in range |
| `Ingest.NullValueCodes` | backend/main.py:82-83 | a null temperature is a 400 in the current endpoint and a 500 in the legacy one, which catches only ValueError |
| `Ingest.LegacyAcceptsWhatCurrentAccepts` | backend/app.py:27-46 | whatever the current endpoint stores, the legacy endpoint stores too, with the same values |
| `Ingest.DeviceErrorReportRejected` | esp32/src/main.cpp:187-200 | the device's sensor-failure report has no `temperatura`, so both endpoints reject it and store nothing |
| `Ingest.DeviceMeasurementStored` | esp32/src/main.cpp:145-157 | a plausible device measurement is stored with the server's own classification, not the device's |
| `Query.CappedSize` | backend/main.py:121 | corrected: the page size never exceeds 1000, and a request from 1 to 1000 is honoured exactly |
| `Query.Slice` | backend/main.py:145 | skip then limit returns the contiguous block starting at `skip`, at most `limit` long and empty past the end |
| `Query.SliceKeepsOrder` | backend/main.py:145 | a block of a newest-first sequence is newest-first |
| `Query.Ordered` | backend/main.py:124-145 | the documents `find` returns are exactly the matching ones, newest first |
| `Query.CountDocuments` | backend/main.py:154 | `count_documents(query)` counts exactly the documents `find(query)` returns before skip and limit |
| `Query.DateBound` | backend/main.py:125-140 | an absent or empty date argument sets no bound; non-empty text is an error iff it does not parse after the `'Z'` rewrite, and otherwise sets the parsed date as an inclusive bound |
| `Query.Prepare` | backend/main.py:121-143 | the limit is the smaller of the request (default 100) and 1000; the skip is the request (default 0); the window is built from the two date bounds; the status filter is kept; a 500 iff limit or skip is not an integer, or the skip is negative after the dates parse; a start-date error iff the integers parse and the start does not; an end-date error iff the start parses and the end does not |
| `Query.Execute` | backend/main.py:145-163 | a page is the block of the newest-first matches that starts at `skip` and is at most `limit` long, empty past the end; it never holds more than `total_matching` documents, and it echoes limit and skip |
| `Query.ExecuteBlock` | backend/main.py:145 | a page of size `size` is the block from `skip` to `skip + size` of the ordered matches, clipped to their number |
| `Query.GetDataAsWritten` | backend/main.py:115-167 | the endpoint as written: an unavailable store is a 503 |
| `Query.GetData` | backend/main.py:115-167 | corrected: every page holds at most 1000 documents and at most `total_matching` |
| `Query.AsWrittenAgreesForPositiveLimits` | backend/main.py:121 | for an absent or positive limit, the code as written and the corrected endpoint return the same thing |
| `Query.SelectAll` | backend/main.py:124 | with no filters, every document matches |
| `Query.LimitZeroLiftsCap` | backend/main.py:121-145 | as written, for any well-formed request with `limit=0` (any dates, status and skip), the page is every match from `skip` on, however many |
| `Query.LimitZeroCapped` | backend/main.py:121-145 | corrected, for any well-formed request with `limit=0`, the page is the next 1000 matches from `skip` (fewer if there are fewer) |
| `Query.LimitZeroReturnsEverything` | backend/main.py:121-145 | as written, `limit=0` on an unfiltered first page returns the whole collection; corrected, at most 1000 documents |
| `Query.NegativeLimitReadAsMagnitude` | backend/main.py:121-145 | as written, for any well-formed request with `limit=-n` (any dates, status and skip), the page is the next n matches from `skip`, beyond 1000 when n exceeds it |
| `Query.NegativeLimitCapped` | backend/main.py:121-145 | corrected, for any well-formed request with `limit=-n`, the page is the next min(n, 1000) matches from `skip` |
| `Query.WrittenPage` | backend/main.py:121-145 | as written, whenever the cursor receives a bound b, the page is the next b matches from `skip` |
| `Query.CorrectedPage` | backend/main.py:121-154 | corrected, every well-formed request gets the next (capped) page-size matches from `skip`, and `total_matching` counts every match |
| `Query.NewReadingBetweenPagesRepeats` | backend/main.py:145 | a newer reading stored between two page requests shifts an older one onto the next page, so that page repeats it |
| `Query.PaginationSweep` | backend/main.py:121-145 | when the collection is unchanged between requests and no two matching documents share a timestamp (copies included), paging with a fixed size and skips 0, size, 2·size, … yields the matches newest first without gaps or repeats, whatever newest-first order the store picks for each page |
| `Query.SweepInOrder` | backend/main.py:121-145 | over the model's newest-first order, the first n pages join into the first n·size matches |
| `Query.AnyStoreOrderIsOrdered` | backend/main.py:124-145 | when no two different matches share a timestamp, every newest-first order of the matches the store may return is the model's order |
| `Query.TiesBreakPagination` | backend/main.py:145 | with two matches that share a timestamp, the first page in one legal order and the second page in the other return the same document twice and never the other |
| `Query.PageK` | backend/main.py:121-159 | when the collection is unchanged between requests and no two matching documents share a timestamp (copies included), page k is the k-th block of whatever newest-first order the store picks, and every page reports the same `total_matching` |
| `Query.PageInOrder` | backend/main.py:121-159 | over the model's newest-first order, page k is its block of `size` documents from position k·`size` |
| `Query.LegacyGetData` | backend/app.py:61-87 | the legacy listing is newest-first and never longer than the collection |
| `Query.LegacyIsUnfilteredQuery` | backend/app.py:67-71 | the legacy listing is the current endpoint with no date or status filter |
| `Stats.Min` | backend/main.py:204 | `$min` is an element of the values and bounds all of them from below |
| `Stats.Max` | backend/main.py:203 | `$max` is an element of the values and bounds all of them from above |
| `Stats.SumBounds` | backend/main.py:202 | n values in [lo, hi] sum to a total in [n·lo, n·hi] |
| `Stats.Summarize` | backend/main.py:202-207 | the mean lies between min and max, both extremes occur among the values, and mean·n is the sum |
| `Stats.CompleteIn` | backend/main.py:198 | the aggregate input holds exactly the in-window documents with both fields present, each as many times as the collection holds it |
| `Stats.PresentValuesCounted` | backend/utils.py:86-106 | the non-missing values of a field are as many as the documents that have it |
| `Stats.HistogramCounts` | backend/main.py:215-225 | a status is a histogram key iff some document has it, its count is the number of such documents, and the `$group` path never keeps `""` |
| `Stats.HistogramTotal` | backend/main.py:215-225 | the histogram's counts add up to the number of documents with a kept status |
| `Stats.GetStats` | backend/main.py:169-260 | 503 iff the store is down; a date error iff that bound is non-empty text that does not parse (the start is checked first); success otherwise. On success, aggregates are present iff some complete reading matched, the valid count is the number of complete in-window documents, the distribution counts the in-window statuses other than `""`, and each summary is that of the complete readings |
| `Stats.StatsDistribution` | backend/main.py:215-225 | each distribution entry is the in-window count of a non-empty status, and the counts total the in-window documents with such a status |
| `Stats.EmptyWindowIsSuccess` | backend/main.py:227-256 | for any parseable window holding no complete reading, the answer is a success with zero valid readings, no aggregates, and the distribution of the window's statuses |
| `Stats.LegacyGetStats` | backend/app.py:89-141 | legacy statistics: 503 iff the store is down; 404 iff the collection is empty; a 500 iff it is non-empty but has no numeric temperature or no numeric humidity (`round(None)`); otherwise the summaries of all present temperatures and of all present humidities, and a total equal to the collection size |
| `Stats.LegacyAgreesOnCompleteReadings` | backend/app.py:96-136 | on a non-empty collection of complete readings with no date filter, the legacy and current endpoints report the same summaries, and the legacy total is the current valid count |
| `Stats.EmptyCollectionCodes` | backend/app.py:137-138 | for an empty collection the current endpoint succeeds while the legacy one answers 404 |
| `Report.FrameOf` | backend/utils.py:108-132 | the frame built from documents has a `status` column iff some document has a status, a `timestamp` column whenever it has rows, and a column for every field that some row has |
| `Report.FieldBlock` | backend/utils.py:86-106 | a field's block exists iff it has values, counts them, and holds their summary |
| `Report.FrameStatistics` | backend/utils.py:80-112 | `{}` iff the frame is empty (no rows or no columns); a KeyError iff a non-empty frame lacks the temperature or humidity column; a distribution iff there is a `status` column |
| `Report.FrameCounts` | backend/utils.py:86-110 | each `count` is the number of non-missing values, and the status counts total the rows with a status |
| `Report.EmptyStatusKeptByValueCounts` | backend/utils.py:109 | `value_counts` keeps an empty status, which the `/stats` histogram drops |
| `Report.Alerts` | backend/utils.py:149 | every alert row has a status other than "normal" |
| `Report.Tail` | backend/utils.py:154 | `tail(n)` is the suffix of length min(n, size) |
| `Report.GenerateReport` | backend/utils.py:114-162 | "no data" iff the frame is empty (no rows or no columns); a TypeError iff a non-empty frame has a `timestamp` column holding a value that is not a date; "no data in period" iff the comparison succeeds and the period is empty; a report iff it succeeds, the period is non-empty and the columns exist, with the period's size, its alert count and its statistics |
| `Report.RecentAlerts` | backend/utils.py:149-160 | recent alerts are absent iff there are none; otherwise they are the last min(5, total) alert rows, in order, all from the period |
| `Report.TailMembers` | backend/utils.py:154 | the tail of the alerts consists of alert rows from the period |
| `Report.MissingStatusIsAlert` | backend/utils.py:149 | a row without status counts as an alert, and a "normal" row does not |
| `Report.StatusColumnIsFrameWide` | backend/utils.py:108-149 | whether the status column exists is decided by the whole frame: missing, the report fails with a KeyError; present, a distribution is reported even if the period's rows have no status |

## Left out

- Flask routing, CORS, the request's JSON parsing, `require_api_key` (backend/main.py:27-42, not applied to any route), logging and response message texts. Each endpoint is a function from the store and the request to a response.
- The MongoDB connection (backend/db_config.py is not part of this model) and the aggregation engine. `$avg`, `$min` and `$max` are modelled over exact reals on documents whose values are numbers.
- The dashboard, CSV import, `detectar_anomalias`, `converter_timestamp` and `formatar_relatorio_txt`. They are outside the core.
- The firmware's WiFi, NTP, HTTP client and LED code. A reading is passed in as two floats, and the device's `float` (32-bit) is modelled as an exact real.
- Floating-point rounding: `round(…, 2)` of the averages, and the median and standard deviation of `calcular_estatisticas`. Averages are exact reals.
- `float()` on text and `datetime.fromisoformat` are parameters, so their exact grammars are not modelled. The clock is the parameter `now`; `timedelta(hours=…)` takes a whole number of hours.
- `.env` loading, and configuration values that are NaN or not numbers (backend/config.py:24-32 raises at import for the latter).
- The OverflowError of `float()` on a huge JSON integer, JSON bodies that are not objects, and `status` values that are not strings.
- The stored document: the source stores the raw payload values plus any extra keys. The model stores the converted numbers and drops extra keys, so a stored reading is the four fields the queries read.
- Insert failures: `insert_one` (backend/main.py:96) may raise, for example on a duplicate `_id` or a write error, and backend/main.py:110-112 turns that into a 500. The model's store always accepts the insert.
- `Query.PaginationSweep`: holds only when no two matching documents share a timestamp, counting two copies of one reading (distinct `_id`s in the store) as a tie. With ties, MongoDB may order them differently on each page request, and `Query.TiesBreakPagination` shows a repeat and a gap.
- `Query.PageK`: holds only when no two matching documents share a timestamp, for the same reason.
- Concurrent writes between page requests: each request is modelled against one fixed collection. The device posts a new reading about every 30 seconds, which shifts every later page by one; `Query.NewReadingBetweenPagesRepeats` shows the resulting repeat. `Query.PaginationSweep` and `Query.PageK` assume the collection does not change during a sweep.
- Ordering among timestamps that are not dates: BSON compares them by type and value, and the model treats them as ties.
- The order of keys in the histograms (the source sorts by count, and a JSON object's key order carries no meaning here). The `periodo_consultado` echo.
- `Config.AsciiLower`: lower-cases ASCII letters only, which is enough to compare against "production" and "testing", but not all of Python's `str.lower`.
- `Query.GetDataAsWritten`: its own contract states only the 503 case. Its behaviour is stated by separate lemmas: `Query.LimitZeroLiftsCap` for limit 0, `Query.NegativeLimitReadAsMagnitude` for negative limits, `Query.WrittenPage` for any limit the cursor receives as a bound (all three for every well-formed request, whatever its dates, status and skip), and `Query.AsWrittenAgreesForPositiveLimits` for positive limits.
- `Status.ClassifyAsWritten`: its own contract states only the reading-error direction. Its agreement with the corrected classifier is stated by `Status.AsWrittenAgreesUnlessTextNaN`.

## Findings

| source | as written | input that shows it | evidently intended | confidence | as-written member | corrected member |
|---|---|---|---|---|---|---|
| backend/utils.py:66-70 | `temp < -50 or temp > 100` (and the same for humidity) is false for NaN, so NaN passes the range checks | `validar_dados_sensor(float('nan'), 50)` returns `(True, "Dados válidos")` | NaN is out of range, as in the chained `-50 <= temp <= 100` of backend/main.py:77 | not executed | `SensorValidation.ValidateAsWritten` | `SensorValidation.Validate` |
| backend/utils.py:22-45 | `pd.isna` screens only None and a float NaN; the text "nan" passes it, `float("nan")` is NaN, and every threshold comparison is false | `determinar_status("nan", 50)` returns `"normal"` under the default thresholds | a reading that is NaN after conversion is `erro_leitura` | not executed | `Status.ClassifyAsWritten` | `Status.Classify` |
| backend/main.py:121 | `min(int(limit), 1000)` caps only from above; the store reads limit 0 as "no limit" and -n as n | `GET /data?limit=0` returns every document in the collection, and `GET /data?limit=-5000` up to 5000 | at most 1000 documents per page | not executed | `Query.GetDataAsWritten` | `Query.GetData` |

=== FILE: config.dfy ===
/** The threshold configuration of backend/config.py: eight band bounds, the
    e-mail settings that `validar_configuracao` also inspects, the limit
    getters and the environment-name selection of `get_config`. */
module Config {
  import opened Wrappers

  /** The eight bounds, in degrees Celsius and percent relative humidity. */
  datatype Thresholds = Thresholds(
    tempMinAlert: real, tempMaxAlert: real, tempMinCritical: real, tempMaxCritical: real,
    humMinAlert: real, humMaxAlert: real, humMinCritical: real, humMaxCritical: real)

  /** `EMAIL_RECIPIENTS` is the result of `str.split(',')`, so it is a list of strings. */
  datatype EmailSettings = EmailSettings(enabled: bool, username: string, password: string, recipients: seq<string>)

  datatype Settings = Settings(bands: Thresholds, email: EmailSettings)

  /** One message of `validar_configuracao`, in the order the checks run. */
  datatype ConfigError =
    | TempMinBand | TempMaxBand | HumMinBand | HumMaxBand
    | EmailUsernameMissing | EmailPasswordMissing | EmailRecipientsMissing

  /** The defaults read when no environment variable is set. */
  const DefaultThresholds := Thresholds(5.0, 30.0, 0.0, 40.0, 20.0, 90.0, 10.0, 95.0)
  const DefaultEmail := EmailSettings(false, "", "", [""])
  const DefaultSettings := Settings(DefaultThresholds, DefaultEmail)

  predicate IsBandError(e: ConfigError) {
    e.TempMinBand? || e.TempMaxBand? || e.HumMinBand? || e.HumMaxBand?
  }

  /** Position of a message in the fixed check order. */
  function Rank(e: ConfigError): nat {
    match e
    case TempMinBand => 0
    case TempMaxBand => 1
    case HumMinBand => 2
    case HumMaxBand => 3
    case EmailUsernameMissing => 4
    case EmailPasswordMissing => 5
    case EmailRecipientsMissing => 6
  }

  /** The condition whose violation the check reports as `e` (for a band error). */
  predicate BandHolds(t: Thresholds, e: ConfigError)
    requires IsBandError(e)
  {
    match e
    case TempMinBand => t.tempMinCritical < t.tempMinAlert
    case TempMaxBand => t.tempMaxAlert < t.tempMaxCritical
    case HumMinBand => t.humMinCritical < t.humMinAlert
    case HumMaxBand => t.humMaxAlert < t.humMaxCritical
  }

  /** Each critical bound lies strictly outside its alert bound. */
  predicate BandsOrdered(t: Thresholds) {
    && t.tempMinCritical < t.tempMinAlert
    && t.tempMaxAlert < t.tempMaxCritical
    && t.humMinCritical < t.humMinAlert
    && t.humMaxAlert < t.humMaxCritical
  }

  /** The four band checks; each uses `>=`, so equal bounds are an error. */
  function BandErrors(t: Thresholds): (errs: seq<ConfigError>)
    ensures |errs| <= 4
    ensures forall i :: 0 <= i < |errs| ==> IsBandError(errs[i])
    ensures forall i, j :: 0 <= i < j < |errs| ==> Rank(errs[i]) < Rank(errs[j])
    ensures forall e :: IsBandError(e) ==> (e in errs <==> !BandHolds(t, e))
  {
    (if t.tempMinCritical >= t.tempMinAlert then [TempMinBand] else [])
    + (if t.tempMaxAlert >= t.tempMaxCritical then [TempMaxBand] else [])
    + (if t.humMinCritical >= t.humMinAlert then [HumMinBand] else [])
    + (if t.humMaxAlert >= t.humMaxCritical then [HumMaxBand] else [])
  }

  /** The e-mail checks, run only when e-mail is enabled. */
  function EmailErrors(m: EmailSettings): (errs: seq<ConfigError>)
    ensures !m.enabled ==> errs == []
    ensures forall i :: 0 <= i < |errs| ==> !IsBandError(errs[i])
    ensures forall i, j :: 0 <= i < j < |errs| ==> Rank(errs[i]) < Rank(errs[j])
    ensures m.enabled ==>
      && (EmailUsernameMissing in errs <==> m.username == "")
      && (EmailPasswordMissing in errs <==> m.password == "")
      && (EmailRecipientsMissing in errs <==> (m.recipients == [] || m.recipients == [""]))
  {
    if !m.enabled then []
    else
      (if m.username == "" then [EmailUsernameMissing] else [])
      + (if m.password == "" then [EmailPasswordMissing] else [])
      + (if m.recipients == [] || m.recipients == [""] then [EmailRecipientsMissing] else [])
  }

  /** `Config.validar_configuracao`: the ordered list of problems, empty when the settings are usable. */
  function Validate(c: Settings): (errs: seq<ConfigError>)
    ensures forall i, j :: 0 <= i < j < |errs| ==> Rank(errs[i]) < Rank(errs[j])
    ensures |errs| <= 7
  {
    var b := BandErrors(c.bands);
    var m := EmailErrors(c.email);
    assert forall i :: 0 <= i < |m| ==> Rank(m[i]) >= 4 by {
      forall i | 0 <= i < |m| ensures Rank(m[i]) >= 4 {
        assert !IsBandError(m[i]);
      }
    }
    b + m
  }

  /** No band message is reported exactly when the four strict orderings hold. */
  lemma NoBandErrorIff(c: Settings)
    ensures (forall i :: 0 <= i < |Validate(c)| ==> !IsBandError(Validate(c)[i])) <==> BandsOrdered(c.bands)
  {
    var b := BandErrors(c.bands);
    var m := EmailErrors(c.email);
    assert Validate(c) == b + m;
    if BandsOrdered(c.bands) {
      assert b == [];
    } else {
      assert |b| > 0 by {
        if c.bands.tempMinCritical >= c.bands.tempMinAlert { assert TempMinBand in b; }
        else if c.bands.tempMaxAlert >= c.bands.tempMaxCritical { assert TempMaxBand in b; }
        else if c.bands.humMinCritical >= c.bands.humMinAlert { assert HumMinBand in b; }
        else { assert HumMaxBand in b; }
      }
      assert Validate(c)[0] == b[0];
    }
  }

  /** A critical bound equal to its alert bound is rejected (the checks use `>=`). */
  lemma EqualBoundsAreErrors(c: Settings)
    requires c.bands.tempMinCritical == c.bands.tempMinAlert || c.bands.tempMaxAlert == c.bands.tempMaxCritical
          || c.bands.humMinCritical == c.bands.humMinAlert || c.bands.humMaxAlert == c.bands.humMaxCritical
    ensures Validate(c) != []
  {
    assert !BandsOrdered(c.bands);
    NoBandErrorIff(c);
  }

  /** With e-mail disabled the outcome depends on the eight thresholds alone. */
  lemma EmailDisabledOnlyBandsMatter(c: Settings, d: Settings)
    requires !c.email.enabled && !d.email.enabled && c.bands == d.bands
    ensures Validate(c) == Validate(d) == BandErrors(c.bands)
  {
  }

  /** Alert-interval ordering is never checked: a configuration whose alert
      interval is empty (minimum above maximum) still validates. */
  lemma EmptyAlertIntervalPasses()
    ensures var t := Thresholds(35.0, 30.0, 0.0, 40.0, 20.0, 90.0, 10.0, 95.0);
            t.tempMinAlert > t.tempMaxAlert && Validate(Settings(t, DefaultEmail)) == []
  {
  }

  /** The shipped defaults pass validation. */
  lemma DefaultsValid()
    ensures Validate(DefaultSettings) == []
    ensures BandsOrdered(DefaultThresholds)
  {
  }

  /** One `{'min', 'max'}` entry of the limit dictionaries. */
  datatype Band = Band(min: real, max: real)
  datatype Limits = Limits(alert: Band, critical: Band)

  /** `get_limites_temperatura`. */
  function TemperatureLimits(t: Thresholds): Limits {
    Limits(Band(t.tempMinAlert, t.tempMaxAlert), Band(t.tempMinCritical, t.tempMaxCritical))
  }

  /** `get_limites_umidade`. */
  function HumidityLimits(t: Thresholds): Limits {
    Limits(Band(t.humMinAlert, t.humMaxAlert), Band(t.humMinCritical, t.humMaxCritical))
  }

  /** Rebuilds the eight thresholds from the two limit dictionaries. */
  function FromLimits(temp: Limits, hum: Limits): Thresholds {
    Thresholds(temp.alert.min, temp.alert.max, temp.critical.min, temp.critical.max,
               hum.alert.min, hum.alert.max, hum.critical.min, hum.critical.max)
  }

  /** The limit getters expose every threshold, each under its own key. */
  lemma LimitsRoundTrip(t: Thresholds)
    ensures FromLimits(TemperatureLimits(t), HumidityLimits(t)) == t
    ensures TemperatureLimits(t).critical.min < TemperatureLimits(t).alert.min <==> t.tempMinCritical < t.tempMinAlert
  {
  }

  /** The three configuration classes and what each overrides. */
  datatype Profile = Development | Production | Testing

  function ProfileName(p: Profile): string {
    match p
    case Development => "development"
    case Production => "production"
    case Testing => "testing"
  }

  /** `str.lower` on ASCII letters; other characters are left as they are. */
  function AsciiLower(s: string): (r: string)
    ensures |r| == |s|
    ensures forall i :: 0 <= i < |s| ==> ('A' <= s[i] <= 'Z' ==> r[i] as int == s[i] as int + 32)
    ensures forall i :: 0 <= i < |s| ==> (!('A' <= s[i] <= 'Z') ==> r[i] == s[i])
  {
    if s == [] then []
    else [if 'A' <= s[0] <= 'Z' then (s[0] as int + 32) as char else s[0]] + AsciiLower(s[1..])
  }

  /** `get_config`: `FLASK_ENV` (default "development"), lower-cased, picks the class. */
  function GetConfig(env: Option<string>): (p: Profile)
    ensures p == Production <==> AsciiLower(env.GetOr("development")) == "production"
    ensures p == Testing <==> AsciiLower(env.GetOr("development")) == "testing"
  {
    var name := AsciiLower(env.GetOr("development"));
    if name == "production" then Production
    else if name == "testing" then Testing
    else Development
  }

  /** Every class is selected by its own name, and an unset variable selects development. */
  lemma GetConfigRoundTrip(p: Profile)
    ensures GetConfig(Some(ProfileName(p))) == p
    ensures GetConfig(None) == Development
  {
  }

  /** Setting values that differ between the classes. */
  function FlaskDebug(p: Profile): bool {
    match p
    case Production => false
    case _ => true
  }

  function LogLevel(p: Profile): string {
    match p
    case Development => "DEBUG"
    case Production => "WARNING"
    case Testing => "DEBUG"
  }

  function MongoDatabase(p: Profile, base: string): string {
    if p == Testing then "temperatura_db_test" else base
  }
}

=== FILE: device.dfy ===
/** The firmware side (esp32/src/main.cpp): `determineDeviceStatus` with its
    hard-coded bands, and the NaN short-circuit of `readSensorAndSend`. */
module Device {
  import opened Wrappers
  import opened PyValue
  import opened Status
  import Config

  /** `determineDeviceStatus`: same bands as the server defaults, but critical
      humidity is checked before alert temperature, and there is no physical
      range check. */
  function DeviceStatus(temp: Float, hum: Float): (r: Status)
    ensures r != SensorError && r != ReadingError
  {
    if Above(temp, 40.0) || Below(temp, 0.0) then CriticalTemperature
    else if Above(hum, 95.0) || Below(hum, 10.0) then CriticalHumidity
    else if Above(temp, 30.0) || Below(temp, 5.0) then AlertTemperature
    else if Above(hum, 90.0) || Below(hum, 20.0) then AlertHumidity
    else Normal
  }

  /** What one sensor cycle sends (when the network is up). */
  datatype Transmission =
    | ErrorReport(errorType: string, message: string)
    | Measurement(temp: Float, hum: Float, status: Status)

  /** `readSensorAndSend`: a NaN from either channel is reported as
      `erro_sensor` and never reaches the classifier. */
  function ReadSensorAndSend(hum: Float, temp: Float): (t: Transmission)
    ensures (hum.NaN? || temp.NaN?) <==> t == ErrorReport(Label(SensorError), "Falha na leitura do DHT11")
    ensures t.Measurement? ==> !t.temp.NaN? && !t.hum.NaN?
  {
    if hum.NaN? || temp.NaN? then ErrorReport("erro_sensor", "Falha na leitura do DHT11")
    else Measurement(temp, hum, DeviceStatus(temp, hum))
  }

  predicate TempAlertNotCritical(t: real) {
    0.0 <= t <= 40.0 && (t > 30.0 || t < 5.0)
  }

  predicate HumCritical(h: real) {
    h > 95.0 || h < 10.0
  }

  /** For physically plausible values and the default bands, the device and the
      server agree except when the temperature is in its alert band (not
      critical) and the humidity is critical; there the device says
      `critico_umidade` and the server `alerta_temperatura`. */
  lemma DeviceAgreesWithServer(t: real, h: real, parse: string -> Option<Float>)
    requires -50.0 <= t <= 100.0 && 0.0 <= h <= 100.0
    ensures var server := Classify(VNum(Num(t)), VNum(Num(h)), Config.DefaultThresholds, parse);
            var device := DeviceStatus(Num(t), Num(h));
            && (device != server <==> TempAlertNotCritical(t) && HumCritical(h))
            && (device != server ==> device == CriticalHumidity && server == AlertTemperature)
  {
  }

  /** Decision examples: critical humidity outranks alert temperature, and the
      bound values themselves are not critical. */
  lemma DevicePriorityExamples()
    ensures DeviceStatus(Num(35.0), Num(97.0)) == CriticalHumidity
    ensures DeviceStatus(Num(40.0), Num(50.0)) == AlertTemperature
    ensures DeviceStatus(Num(0.0), Num(50.0)) == AlertTemperature
    ensures DeviceStatus(Num(20.0), Num(95.0)) == AlertHumidity
    ensures DeviceStatus(Num(20.0), Num(10.0)) == AlertHumidity
    ensures DeviceStatus(Num(150.0), Num(50.0)) == CriticalTemperature
  {
  }
}

=== FILE: ingest.dfy ===
/** `receive_data` in backend/main.py and its legacy form in backend/app.py:
    a fixed sequence of checks on the JSON body, then one insert. */
module Ingest {
  import opened Wrappers
  import opened PyValue
  import opened Store
  import opened Status
  import Config
  import IsoTime
  import Device

  /** A JSON object body. The four keys the endpoint reads are explicit;
      `otherKeys` counts the rest (`device_id`, `message`, ...). */
  datatype Payload = Payload(
    temperatura: Option<Value>, umidade: Option<Value>, timestamp: Option<Value>,
    status: Option<string>, otherKeys: nat)

  predicate IsEmpty(p: Payload) {
    p.temperatura.None? && p.umidade.None? && p.timestamp.None? && p.status.None? && p.otherKeys == 0
  }

  /** What the endpoint takes from its surroundings: the clock, and the two
      parsers (`float()` on text, `datetime.fromisoformat`). */
  datatype Host = Host(now: int, parseFloat: string -> Option<Float>, parseIso: string -> Option<int>)

  /** Failure responses, each with its HTTP status code. */
  datatype IngestError =
    | StoreUnavailable
    | EmptyPayload
    | MissingField(name: string)
    | NotNumeric
    | TemperatureOutOfRange
    | HumidityOutOfRange
    | BadTimestamp
    | Internal

  function HttpCode(e: IngestError): int {
    match e
    case StoreUnavailable => 503
    case Internal => 500
    case _ => 400
  }

  /** Success codes: the current endpoint answers 201, the legacy one 200. */
  const Created := 201
  const Ok := 200

  /** The stored `timestamp`: a falsy or absent value means "now"; text is
      parsed after the 'Z' rewrite; any other truthy value is kept verbatim. */
  function ResolveStamp(ts: Option<Value>, host: Host): (r: Result<Stamp, IngestError>)
    ensures (ts.None? || !Truthy(ts.value)) ==> r == Success(Date(host.now))
    ensures r.Failure? ==> r.error == BadTimestamp && ts.Some? && ts.value.VStr?
                           && host.parseIso(IsoTime.ReplaceZ(ts.value.s)).None?
    ensures ts.Some? && Truthy(ts.value) && ts.value.VStr? ==>
              var parsed := host.parseIso(IsoTime.ReplaceZ(ts.value.s));
              && (parsed.None? ==> r == Failure(BadTimestamp))
              && (parsed.Some? ==> r == Success(Date(parsed.value)))
    ensures ts.Some? && Truthy(ts.value) && !ts.value.VStr? ==> r == Success(NotADate)
  {
    if ts.None? || !Truthy(ts.value) then Success(Date(host.now))
    else if ts.value.VStr? then
      var parsed := host.parseIso(IsoTime.ReplaceZ(ts.value.s));
      if parsed.Some? then Success(Date(parsed.value)) else Failure(BadTimestamp)
    else Success(NotADate)
  }

  /** The outcome of one request: the store afterwards and the response. */
  datatype Outcome = Outcome(store: Store, response: Result<Reading, IngestError>)

  /** `receive_data` (backend/main.py). Checks, in order: store available, body
      non-empty, `temperatura` present, `umidade` present, both convertible,
      temperature in [-50, 100], humidity in [0, 100], timestamp parseable.
      Only then is the status computed and the document appended. */
  function ReceiveData(db: Store, body: Option<Payload>, b: Config.Thresholds, host: Host): (out: Outcome)
    ensures out.response.Failure? ==> out.store == db
    ensures out.response.Success? ==> db.Online? && out.store == Online(db.docs + [out.response.value])
  {
    if db.Offline? then Outcome(db, Failure(StoreUnavailable))
    else if body.None? || IsEmpty(body.value) then Outcome(db, Failure(EmptyPayload))
    else
      var p := body.value;
      if p.temperatura.None? then Outcome(db, Failure(MissingField("temperatura")))
      else if p.umidade.None? then Outcome(db, Failure(MissingField("umidade")))
      else
        var t := ToFloat(p.temperatura.value, host.parseFloat);
        var h := ToFloat(p.umidade.value, host.parseFloat);
        if t.Failure? || h.Failure? then Outcome(db, Failure(NotNumeric))
        else if !Within(t.value, -50.0, 100.0) then Outcome(db, Failure(TemperatureOutOfRange))
        else if !Within(h.value, 0.0, 100.0) then Outcome(db, Failure(HumidityOutOfRange))
        else
          var stamp := ResolveStamp(p.timestamp, host);
          if stamp.Failure? then Outcome(db, Failure(BadTimestamp))
          else
            // The corrected classifier; after the range checks it agrees with
            // the one as written, since NaN never passes `Within`.
            var status := Classify(VNum(t.value), VNum(h.value), b, host.parseFloat);
            var doc := Reading(Some(t.value.v), Some(h.value.v), stamp.value, Some(Label(status)));
            Outcome(Online(db.docs + [doc]), Success(doc))
  }

  /** What a successful call stores: the converted values, in physical range,
      labelled by the classifier applied to the payload's own values, and never
      with `erro_sensor` or `erro_leitura`. */
  lemma StoredReadingIsClassified(db: Store, body: Option<Payload>, b: Config.Thresholds, host: Host)
    requires ReceiveData(db, body, b, host).response.Success?
    ensures var doc := ReceiveData(db, body, b, host).response.value;
            var p := body.value;
            && p.temperatura.Some? && p.umidade.Some?
            && ToFloat(p.temperatura.value, host.parseFloat) == Success(Num(doc.temperatura.value))
            && ToFloat(p.umidade.value, host.parseFloat) == Success(Num(doc.umidade.value))
            && -50.0 <= doc.temperatura.value <= 100.0 && 0.0 <= doc.umidade.value <= 100.0
            && doc.status == Some(Label(Classify(p.temperatura.value, p.umidade.value, b, host.parseFloat)))
            && ResolveStamp(p.timestamp, host).Success? && doc.stamp == ResolveStamp(p.timestamp, host).value
            && ParseLabel(doc.status.value) !in {Some(SensorError), Some(ReadingError)}
  {
    var p := body.value;
    var t := ToFloat(p.temperatura.value, host.parseFloat).value;
    var h := ToFloat(p.umidade.value, host.parseFloat).value;
    assert !IsNa(p.temperatura.value) && !IsNa(p.umidade.value);
    PhysicalRangeFirst(VNum(t), VNum(h), b, host.parseFloat);
    var s := Classify(VNum(t), VNum(h), b, host.parseFloat);
    LabelRoundTrip(s, Label(s));
  }

  /** The store is up and the body has both required values. */
  predicate FieldsPresent(db: Store, body: Option<Payload>) {
    db.Online? && body.Some? && body.value.temperatura.Some? && body.value.umidade.Some?
  }

  /** ... and `float()` accepts both. */
  predicate Converts(db: Store, body: Option<Payload>, host: Host) {
    && FieldsPresent(db, body)
    && ToFloat(body.value.temperatura.value, host.parseFloat).Success?
    && ToFloat(body.value.umidade.value, host.parseFloat).Success?
  }

  /** ... and the temperature lies in [-50, 100]. */
  predicate TemperaturePlausible(db: Store, body: Option<Payload>, host: Host) {
    Converts(db, body, host) && Within(ToFloat(body.value.temperatura.value, host.parseFloat).value, -50.0, 100.0)
  }

  /** ... and the humidity lies in [0, 100]. */
  predicate BothPlausible(db: Store, body: Option<Payload>, host: Host) {
    TemperaturePlausible(db, body, host) && Within(ToFloat(body.value.umidade.value, host.parseFloat).value, 0.0, 100.0)
  }

  /** The checks run in the order backend/main.py:59-90 performs them: each
      error arises exactly when every earlier check passed and its own check
      fails, and a request that passes every check is stored. */
  lemma CheckOrder(db: Store, body: Option<Payload>, b: Config.Thresholds, host: Host)
    ensures var r := ReceiveData(db, body, b, host).response;
            r == Failure(StoreUnavailable) <==> db.Offline?
    ensures var r := ReceiveData(db, body, b, host).response;
            r == Failure(EmptyPayload) <==> db.Online? && (body.None? || IsEmpty(body.value))
    ensures var r := ReceiveData(db, body, b, host).response;
            r == Failure(MissingField("temperatura")) <==>
              db.Online? && body.Some? && !IsEmpty(body.value) && body.value.temperatura.None?
    ensures var r := ReceiveData(db, body, b, host).response;
            r == Failure(MissingField("umidade")) <==>
              db.Online? && body.Some? && body.value.temperatura.Some? && body.value.umidade.None?
    ensures var r := ReceiveData(db, body, b, host).response;
            r == Failure(NotNumeric) <==> FieldsPresent(db, body) && !Converts(db, body, host)
    ensures var r := ReceiveData(db, body, b, host).response;
            r == Failure(TemperatureOutOfRange) <==> Converts(db, body, host) && !TemperaturePlausible(db, body, host)
    ensures var r := ReceiveData(db, body, b, host).response;
            r == Failure(HumidityOutOfRange) <==> TemperaturePlausible(db, body, host) && !BothPlausible(db, body, host)
    ensures var r := ReceiveData(db, body, b, host).response;
            r == Failure(BadTimestamp) <==>
              BothPlausible(db, body, host) && ResolveStamp(body.value.timestamp, host).Failure?
    ensures var r := ReceiveData(db, body, b, host).response;
            r.Success? <==> BothPlausible(db, body, host) && ResolveStamp(body.value.timestamp, host).Success?
    ensures ReceiveData(db, body, b, host).response != Failure(Internal)
  {
  }

  /** NaN and the infinities are range failures, not stored readings. */
  lemma NaNRejectedAsOutOfRange(db: Store, b: Config.Thresholds, host: Host)
    requires db.Online?
    ensures ReceiveData(db, Some(Payload(Some(VNum(NaN)), Some(VNum(Num(50.0))), None, None, 0)), b, host).response
            == Failure(TemperatureOutOfRange)
    ensures ReceiveData(db, Some(Payload(Some(VNum(Num(20.0))), Some(VNum(Inf(true))), None, None, 0)), b, host).response
            == Failure(HumidityOutOfRange)
  {
  }

  /** Both values are converted before either range is checked, so an
      unconvertible humidity hides an out-of-range temperature. */
  lemma ConversionBeforeRange(db: Store, b: Config.Thresholds, host: Host)
    requires db.Online?
    ensures ReceiveData(db, Some(Payload(Some(VNum(Num(150.0))), Some(VNull), None, None, 0)), b, host).response
            == Failure(NotNumeric)
  {
  }

  /** `receive_data` in backend/app.py. Differences: no empty-body check (an
      empty object is a missing field, a null body raises), only a ValueError
      from `float()` is a 400 (a TypeError is a 500), the timestamp is always
      the server's clock, no status is computed (a `status` sent by the client
      is stored as sent), and success is 200. */
  function LegacyReceiveData(db: Store, body: Option<Payload>, host: Host): (out: Outcome)
    ensures out.response.Failure? ==> out.store == db
    ensures out.response.Success? ==> db.Online? && out.store == Online(db.docs + [out.response.value])
    ensures out.response.Success? ==> body.Some? && out.response.value.stamp == Date(host.now)
                                      && out.response.value.status == body.value.status
  {
    if db.Offline? then Outcome(db, Failure(StoreUnavailable))
    else if body.None? then Outcome(db, Failure(Internal))
    else
      var p := body.value;
      if p.temperatura.None? then Outcome(db, Failure(MissingField("temperatura")))
      else if p.umidade.None? then Outcome(db, Failure(MissingField("umidade")))
      else
        var t := ToFloat(p.temperatura.value, host.parseFloat);
        if t == Failure(TypeErr) then Outcome(db, Failure(Internal))
        else if t.Failure? then Outcome(db, Failure(NotNumeric))
        else
          var h := ToFloat(p.umidade.value, host.parseFloat);
          if h == Failure(TypeErr) then Outcome(db, Failure(Internal))
          else if h.Failure? then Outcome(db, Failure(NotNumeric))
          else if !Within(t.value, -50.0, 100.0) then Outcome(db, Failure(TemperatureOutOfRange))
          else if !Within(h.value, 0.0, 100.0) then Outcome(db, Failure(HumidityOutOfRange))
          else
            var doc := Reading(Some(t.value.v), Some(h.value.v), Date(host.now), p.status);
            Outcome(Online(db.docs + [doc]), Success(doc))
  }

  /** The legacy checks, each error exactly when the earlier checks passed
      and its own fails. `float()` runs on the temperature and then the
      humidity inside one `try`: a ValueError is a 400, while a TypeError
      (a null or a container) escapes to the outer handler, a 500. */
  lemma LegacyCheckOrder(db: Store, body: Option<Payload>, host: Host)
    ensures var r := LegacyReceiveData(db, body, host).response;
            r == Failure(StoreUnavailable) <==> db.Offline?
    ensures var r := LegacyReceiveData(db, body, host).response;
            r == Failure(MissingField("temperatura")) <==> db.Online? && body.Some? && body.value.temperatura.None?
    ensures var r := LegacyReceiveData(db, body, host).response;
            r == Failure(MissingField("umidade")) <==>
              db.Online? && body.Some? && body.value.temperatura.Some? && body.value.umidade.None?
    ensures var r := LegacyReceiveData(db, body, host).response;
            r == Failure(Internal) <==>
              db.Online? && (body.None? || (FieldsPresent(db, body) &&
                var t := ToFloat(body.value.temperatura.value, host.parseFloat);
                var h := ToFloat(body.value.umidade.value, host.parseFloat);
                t == Failure(TypeErr) || (t.Success? && h == Failure(TypeErr))))
    ensures var r := LegacyReceiveData(db, body, host).response;
            r == Failure(NotNumeric) <==>
              FieldsPresent(db, body) &&
                var t := ToFloat(body.value.temperatura.value, host.parseFloat);
                var h := ToFloat(body.value.umidade.value, host.parseFloat);
                t == Failure(ValueErr) || (t.Success? && h == Failure(ValueErr))
    ensures var r := LegacyReceiveData(db, body, host).response;
            r == Failure(TemperatureOutOfRange) <==> Converts(db, body, host) && !TemperaturePlausible(db, body, host)
    ensures var r := LegacyReceiveData(db, body, host).response;
            r == Failure(HumidityOutOfRange) <==> TemperaturePlausible(db, body, host) && !BothPlausible(db, body, host)
    ensures var r := LegacyReceiveData(db, body, host).response;
            r.Success? <==> BothPlausible(db, body, host)
    ensures var r := LegacyReceiveData(db, body, host).response;
            r.Failure? ==> r.error != EmptyPayload && r.error != BadTimestamp
  {
  }

  /** A null value is a 400 on the current endpoint and a 500 on the legacy one. */
  lemma NullValueCodes(docs: seq<Reading>, b: Config.Thresholds, host: Host)
    ensures var body := Some(Payload(Some(VNull), Some(VNum(Num(50.0))), None, None, 0));
            && HttpCode(ReceiveData(Online(docs), body, b, host).response.error) == 400
            && HttpCode(LegacyReceiveData(Online(docs), body, host).response.error) == 500
  {
  }

  /** Both endpoints accept the same physically valid readings, and the
      current one only adds the timestamp parse and the empty-body rule. */
  lemma LegacyAcceptsWhatCurrentAccepts(db: Store, body: Option<Payload>, b: Config.Thresholds, host: Host)
    requires ReceiveData(db, body, b, host).response.Success?
    ensures LegacyReceiveData(db, body, host).response.Success?
    ensures LegacyReceiveData(db, body, host).response.value.temperatura == ReceiveData(db, body, b, host).response.value.temperatura
    ensures LegacyReceiveData(db, body, host).response.value.umidade == ReceiveData(db, body, b, host).response.value.umidade
  {
  }

  /** The JSON object the firmware posts for one transmission. */
  function DevicePayload(tx: Device.Transmission, stamp: Option<string>): Payload {
    var ts := if stamp.Some? then Some(VStr(stamp.value)) else None;
    match tx
    case ErrorReport(kind, _) => Payload(None, None, ts, Some(kind), 2)
    case Measurement(t, h, _) => Payload(Some(VNum(t)), Some(VNum(h)), ts, None, 1)
  }

  /** The firmware's sensor-failure report carries no `temperatura`, so both
      endpoints reject it and nothing is stored: a NaN reading never reaches
      the collection by this route. */
  lemma DeviceErrorReportRejected(db: Store, hum: Float, temp: Float, stamp: Option<string>,
                                  b: Config.Thresholds, host: Host)
    requires db.Online?
    requires hum.NaN? || temp.NaN?
    ensures var p := Some(DevicePayload(Device.ReadSensorAndSend(hum, temp), stamp));
            && ReceiveData(db, p, b, host) == Outcome(db, Failure(MissingField("temperatura")))
            && LegacyReceiveData(db, p, host) == Outcome(db, Failure(MissingField("temperatura")))
  {
  }

  /** A plausible firmware measurement with no clock time is stored with the
      server's own label, whatever label the device computed. */
  lemma DeviceMeasurementStored(docs: seq<Reading>, hum: real, temp: real, b: Config.Thresholds, host: Host)
    requires -50.0 <= temp <= 100.0 && 0.0 <= hum <= 100.0
    ensures var p := Some(DevicePayload(Device.ReadSensorAndSend(Num(hum), Num(temp)), None));
            var out := ReceiveData(Online(docs), p, b, host);
            && out.response.Success?
            && out.response.value == Reading(Some(temp), Some(hum), Date(host.now),
                 Some(Label(Classify(VNum(Num(temp)), VNum(Num(hum)), b, host.parseFloat))))
  {
  }
}

=== FILE: isotime.dfy ===
/** The one piece of timestamp handling the backend does itself before calling
    `datetime.fromisoformat`: `str.replace("Z", "+00:00")`. */
module IsoTime {

  function CountZ(s: string): nat {
    if s == [] then 0 else (if s[0] == 'Z' then 1 else 0) + CountZ(s[1..])
  }

  /** Every 'Z' becomes "+00:00"; all other characters are kept in order. */
  function ReplaceZ(s: string): (r: string)
    ensures 'Z' !in r
    ensures |r| == |s| + 5 * CountZ(s)
    ensures 'Z' !in s ==> r == s
  {
    if s == [] then []
    else (if s[0] == 'Z' then "+00:00" else [s[0]]) + ReplaceZ(s[1..])
  }

  /** A text without 'Z' is left alone, so the replacement is idempotent. */
  lemma ReplaceZIdempotent(s: string)
    ensures ReplaceZ(ReplaceZ(s)) == ReplaceZ(s)
  {
  }

  /** The replacement works piece by piece. */
  lemma {:induction false} ReplaceZAppend(a: string, b: string)
    ensures ReplaceZ(a + b) == ReplaceZ(a) + ReplaceZ(b)
  {
    if a == [] {
      assert a + b == b;
    } else {
      assert (a + b)[1..] == a[1..] + b;
      ReplaceZAppend(a[1..], b);
    }
  }

  /** The UTC designator the device appends becomes an explicit offset and
      nothing else changes. */
  lemma TrailingZBecomesOffset(s: string)
    requires 'Z' !in s
    ensures ReplaceZ(s + "Z") == s + "+00:00"
  {
    ReplaceZAppend(s, "Z");
  }
}

=== FILE: pyvalue.dfy ===
/** The slice of Python value semantics the backend relies on: what `float()`
    accepts, what `pd.isna` flags, what counts as truthy, and how IEEE doubles
    (NaN and the infinities included) compare with a finite bound. */
module PyValue {
  import opened Wrappers

  /** An IEEE double as Python sees it. `Num` holds every finite value. */
  datatype Float = Num(v: real) | NaN | Inf(positive: bool)

  /** A JSON/DataFrame cell as it reaches the backend. `VComposite` stands for a
      list or an object; `size` is its number of entries. */
  datatype Value =
    | VNull
    | VBool(b: bool)
    | VNum(x: Float)
    | VStr(s: string)
    | VComposite(size: nat)

  /** Why `float(v)` raised. */
  datatype ConversionError = ValueErr | TypeErr

  /** `x < bound`: false for NaN, decided by the sign for an infinity. */
  predicate Below(x: Float, bound: real) {
    match x
    case Num(v) => v < bound
    case NaN => false
    case Inf(pos) => !pos
  }

  /** `x > bound`: false for NaN, decided by the sign for an infinity. */
  predicate Above(x: Float, bound: real) {
    match x
    case Num(v) => v > bound
    case NaN => false
    case Inf(pos) => pos
  }

  /** The chained comparison `lo <= x <= hi`, false for NaN and the infinities. */
  predicate Within(x: Float, lo: real, hi: real) {
    x.Num? && lo <= x.v <= hi
  }

  /** `pd.isna(v)` for a scalar: None and NaN only. */
  predicate IsNa(v: Value) {
    v.VNull? || (v.VNum? && v.x.NaN?)
  }

  /** Python truthiness (`if v:`). NaN is truthy; 0.0, "" and empty containers are not. */
  predicate Truthy(v: Value) {
    match v
    case VNull => false
    case VBool(b) => b
    case VNum(x) => x != Num(0.0)
    case VStr(s) => s != ""
    case VComposite(n) => n > 0
  }

  /** `float(v)`. Parsing a string (with Python's whitespace, sign, exponent,
      "nan" and "inf" rules) is delegated to `parse`; `None` from it is a ValueError. */
  function ToFloat(v: Value, parse: string -> Option<Float>): (r: Result<Float, ConversionError>)
    ensures v.VNum? ==> r == Success(v.x)
    ensures (v.VNull? || v.VComposite?) <==> r == Failure(TypeErr)
    ensures r == Failure(ValueErr) ==> v.VStr?
  {
    match v
    case VNull => Failure(TypeErr)
    case VBool(b) => Success(Num(if b then 1.0 else 0.0))
    case VNum(x) => Success(x)
    case VStr(s) => if parse(s).Some? then Success(parse(s).value) else Failure(ValueErr)
    case VComposite(_) => Failure(TypeErr)
  }

  /** `x` is the result of `float(v)`. */
  predicate Converts(v: Value, parse: string -> Option<Float>, x: Float) {
    ToFloat(v, parse) == Success(x)
  }

  lemma WithinMeansNeitherBelowNorAbove(x: Float, lo: real, hi: real)
    requires x != NaN
    ensures Within(x, lo, hi) <==> !Below(x, lo) && !Above(x, hi)
  {
  }
}

=== FILE: query.dfy ===
/** `get_data` in backend/main.py and backend/app.py: filter, newest-first
    sort, skip, limit (capped at 1000), and the total number of matches. */
module Query {
  import opened Wrappers
  import opened Store
  import IsoTime

  /** A query-string integer: absent (the default applies), or what `int()` made of it. */
  datatype IntArg = Default | Given(n: int) | NotAnInt

  datatype QueryArgs = QueryArgs(
    limit: IntArg, skip: IntArg, startDate: Option<string>, endDate: Option<string>, status: Option<string>)

  datatype QueryError = StoreUnavailable | BadStartDate | BadEndDate | Internal

  function HttpCode(e: QueryError): int {
    match e
    case StoreUnavailable => 503
    case Internal => 500
    case _ => 400
  }

  /** One response page: `data`, `total_matching`, and the echoed `limit` and `skip`. */
  datatype Page = Page(items: seq<Reading>, totalMatching: nat, limit: int, skip: nat)

  const MaxLimit := 1000

  /** The store's reading of a cursor limit: 0 means no limit, a negative
      limit -n returns at most n documents. */
  function CursorLimit(limit: int): Option<nat> {
    if limit == 0 then None
    else if limit < 0 then Some(-limit)
    else Some(limit)
  }

  /** What the cap evidently means: at most 1000 documents whatever was asked,
      and exactly the request when it is between 1 and 1000. */
  function CappedSize(limit: int): (n: Option<nat>)
    ensures n.Some? && n.value <= MaxLimit
    ensures 1 <= limit <= MaxLimit ==> n == Some(limit)
  {
    match CursorLimit(limit)
    case None => Some(MaxLimit)
    case Some(k) => Some(if k <= MaxLimit then k else MaxLimit)
  }

  /** Where a block of `size` documents starting at `skip` ends in a listing of `len`. */
  function BlockEnd(len: nat, skip: nat, size: Option<nat>): (e: nat)
    ensures skip <= len ==> skip <= e <= len
  {
    if size.Some? && skip + size.value < len then skip + size.value else len
  }

  /** The block of at most `size` documents from position `skip`, clipped to the listing. */
  function Block(o: seq<Reading>, skip: nat, size: nat): seq<Reading> {
    o[Min(skip, |o|)..Min(skip + size, |o|)]
  }

  /** `.skip(skip).limit(...)` on an ordered result; `None` takes everything. */
  function Slice(ordered: seq<Reading>, skip: nat, size: Option<nat>): (r: seq<Reading>)
    ensures skip <= |ordered| ==> r == ordered[skip..BlockEnd(|ordered|, skip, size)]
    ensures skip > |ordered| ==> r == []
    ensures size.Some? ==> |r| <= size.value
  {
    if skip >= |ordered| then []
    else
      var rest := ordered[skip..];
      if size.Some? && size.value < |rest| then rest[..size.value] else rest
  }

  /** A slice of a newest-first listing is newest first. */
  lemma SliceKeepsOrder(ordered: seq<Reading>, skip: nat, size: Option<nat>)
    requires NewestFirst(ordered)
    ensures NewestFirst(Slice(ordered, skip, size))
  {
    var r := Slice(ordered, skip, size);
    if skip < |ordered| {
      forall i, j | 0 <= i < j < |r| ensures NoEarlier(r[i].stamp, r[j].stamp) {
        assert r[i] == ordered[skip + i] && r[j] == ordered[skip + j];
      }
    }
  }

  /** An optional date argument: empty or absent means no bound; text that
      does not parse (after the 'Z' rewrite) is an error. */
  function DateBound(arg: Option<string>, parseIso: string -> Option<int>): (r: Option<Option<int>>)
    ensures r == Some(None) <==> arg.None? || arg.value == ""
    ensures r.None? <==> arg.Some? && arg.value != "" && parseIso(IsoTime.ReplaceZ(arg.value)).None?
    ensures arg.Some? && arg.value != "" && parseIso(IsoTime.ReplaceZ(arg.value)).Some? ==>
              r == Some(Some(parseIso(IsoTime.ReplaceZ(arg.value)).value))
  {
    if arg.None? || arg.value == "" then Some(None)
    else
      var t := parseIso(IsoTime.ReplaceZ(arg.value));
      if t.Some? then Some(Some(t.value)) else None
  }

  /** The filter `find` and `count_documents` receive. */
  predicate Matches(r: Reading, w: Window, status: Option<string>) {
    InWindow(r, w) && (status.Some? ==> r.status == status)
  }

  function MatchesQuery(w: Window, status: Option<string>): Reading -> bool {
    (x: Reading) => Matches(x, w, status)
  }

  /** The matching documents in store order. */
  function Selected(docs: seq<Reading>, w: Window, status: Option<string>): seq<Reading> {
    Filter(docs, MatchesQuery(w, status))
  }

  /** `count_documents(query)`: as many as `find(query)` returns before skip and limit. */
  function CountDocuments(docs: seq<Reading>, w: Window, status: Option<string>): (n: nat)
    ensures n == |Selected(docs, w, status)|
  {
    Count(docs, MatchesQuery(w, status))
  }

  /** The matching documents, newest first. */
  function Ordered(docs: seq<Reading>, w: Window, status: Option<string>): (r: seq<Reading>)
    ensures NewestFirst(r)
    ensures multiset(r) == multiset(Selected(docs, w, status))
    ensures |r| == |Selected(docs, w, status)|
    ensures forall i :: 0 <= i < |r| ==> Matches(r[i], w, status)
  {
    var m := Selected(docs, w, status);
    var r := SortNewestFirst(m);
    assert forall i :: 0 <= i < |r| ==> Matches(r[i], w, status) by {
      forall i | 0 <= i < |r| ensures Matches(r[i], w, status) {
        assert r[i] in multiset(m);
      }
    }
    r
  }

  /** The arguments after parsing, or the error the endpoint reports first. */
  datatype Plan = Plan(limit: int, skip: nat, window: Window, status: Option<string>)

  function Prepare(args: QueryArgs, parseIso: string -> Option<int>): (r: Result<Plan, QueryError>)
    ensures r.Success? ==> r.value.limit <= MaxLimit && r.value.status == args.status
    ensures r.Success? && args.limit.Given? ==>
      r.value.limit == (if args.limit.n < MaxLimit then args.limit.n else MaxLimit)
    ensures r.Success? && args.limit.Default? ==> r.value.limit == 100
    ensures r.Success? ==> r.value.skip == (if args.skip.Given? then args.skip.n else 0)
    ensures r.Success? ==>
      && DateBound(args.startDate, parseIso).Some? && DateBound(args.endDate, parseIso).Some?
      && r.value.window == Window(DateBound(args.startDate, parseIso).value, DateBound(args.endDate, parseIso).value)
    ensures r == Failure(BadStartDate) <==>
      !args.limit.NotAnInt? && !args.skip.NotAnInt? && DateBound(args.startDate, parseIso).None?
    ensures r == Failure(BadEndDate) <==>
      && !args.limit.NotAnInt? && !args.skip.NotAnInt?
      && DateBound(args.startDate, parseIso).Some? && DateBound(args.endDate, parseIso).None?
    ensures r == Failure(Internal) <==>
      || args.limit.NotAnInt? || args.skip.NotAnInt?
      || (&& DateBound(args.startDate, parseIso).Some? && DateBound(args.endDate, parseIso).Some?
          && args.skip.Given? && args.skip.n < 0)
    ensures r.Failure? ==> r.error != StoreUnavailable
  {
    if args.limit.NotAnInt? || args.skip.NotAnInt? then Failure(Internal)
    else
      var requested := if args.limit.Given? then args.limit.n else 100;
      var limit := if requested < MaxLimit then requested else MaxLimit;
      var skip := if args.skip.Given? then args.skip.n else 0;
      var start := DateBound(args.startDate, parseIso);
      var end := DateBound(args.endDate, parseIso);
      if start.None? then Failure(BadStartDate)
      else if end.None? then Failure(BadEndDate)
      else if skip < 0 then Failure(Internal)
      else Success(Plan(limit, skip, Window(start.value, end.value), args.status))
  }

  /** A page for a prepared query, with the given reading of the capped limit. */
  function Execute(docs: seq<Reading>, plan: Plan, size: Option<nat>): (p: Page)
    ensures p.totalMatching == |Selected(docs, plan.window, plan.status)|
    ensures |p.items| <= p.totalMatching
    ensures forall i :: 0 <= i < |p.items| ==> Matches(p.items[i], plan.window, plan.status)
    ensures NewestFirst(p.items)
    ensures p.limit == plan.limit && p.skip == plan.skip
    ensures var o := Ordered(docs, plan.window, plan.status);
            plan.skip <= |o| ==> p.items == o[plan.skip..BlockEnd(|o|, plan.skip, size)]
    ensures plan.skip > |Selected(docs, plan.window, plan.status)| ==> p.items == []
  {
    var ordered := Ordered(docs, plan.window, plan.status);
    SliceKeepsOrder(ordered, plan.skip, size);
    var total := CountDocuments(docs, plan.window, plan.status);
    Page(Slice(ordered, plan.skip, size), total, plan.limit, plan.skip)
  }

  /** `get_data` as written: `limit(min(limit, 1000))` on the cursor, where 0
      means no limit and a negative value is read as its magnitude. */
  function GetDataAsWritten(db: Store, args: QueryArgs, parseIso: string -> Option<int>): (r: Result<Page, QueryError>)
    ensures db.Offline? ==> r == Failure(StoreUnavailable)
  {
    if db.Offline? then Failure(StoreUnavailable)
    else
      var plan := Prepare(args, parseIso);
      if plan.Failure? then Failure(plan.error)
      else Success(Execute(db.docs, plan.value, CursorLimit(plan.value.limit)))
  }

  /** `get_data` with the cap applied to what the cursor returns. */
  function GetData(db: Store, args: QueryArgs, parseIso: string -> Option<int>): (r: Result<Page, QueryError>)
    ensures r.Success? ==> |r.value.items| <= MaxLimit
    ensures r.Success? ==> |r.value.items| <= r.value.totalMatching
    ensures db.Offline? ==> r == Failure(StoreUnavailable)
  {
    if db.Offline? then Failure(StoreUnavailable)
    else
      var plan := Prepare(args, parseIso);
      if plan.Failure? then Failure(plan.error)
      else Success(Execute(db.docs, plan.value, CappedSize(plan.value.limit)))
  }

  /** For a limit between 1 and 1000 both readings give the same page. */
  lemma AsWrittenAgreesForPositiveLimits(db: Store, args: QueryArgs, parseIso: string -> Option<int>)
    requires args.limit.Default? || (args.limit.Given? && 1 <= args.limit.n)
    ensures GetDataAsWritten(db, args, parseIso) == GetData(db, args, parseIso)
  {
    var plan := Prepare(args, parseIso);
    if db.Online? && plan.Success? {
      assert 1 <= plan.value.limit <= MaxLimit;
      assert CursorLimit(plan.value.limit) == CappedSize(plan.value.limit);
    }
  }

  /** Every document matches an empty filter. */
  lemma {:induction false} SelectAll(docs: seq<Reading>)
    ensures Selected(docs, Everything, None) == docs
  {
    if docs != [] {
      var init, last := docs[..|docs| - 1], docs[|docs| - 1];
      assert docs == init + [last];
      SelectAll(init);
      FilterAppend(init, last, MatchesQuery(Everything, None));
    }
  }

  /** Both readings of a well-formed request execute its plan; they differ
      only in how the limit reaches the cursor. */
  lemma PreparedPages(db: Store, args: QueryArgs, parseIso: string -> Option<int>, plan: Plan)
    requires db.Online? && Prepare(args, parseIso) == Success(plan)
    ensures GetDataAsWritten(db, args, parseIso) == Success(Execute(db.docs, plan, CursorLimit(plan.limit)))
    ensures GetData(db, args, parseIso) == Success(Execute(db.docs, plan, CappedSize(plan.limit)))
  {
  }

  /** As written, `limit=0` lifts the cap: the page is every match from
      `skip` on, however many there are. */
  lemma LimitZeroLiftsCap(db: Store, args: QueryArgs, parseIso: string -> Option<int>, plan: Plan)
    requires db.Online? && args.limit == Given(0) && Prepare(args, parseIso) == Success(plan)
    ensures var o := Ordered(db.docs, plan.window, plan.status);
            var asWritten := GetDataAsWritten(db, args, parseIso);
            && asWritten.Success?
            && asWritten.value.items == o[Min(plan.skip, |o|)..]
  {
    var o := Ordered(db.docs, plan.window, plan.status);
    assert plan.limit == 0;
    PreparedPages(db, args, parseIso, plan);
    if plan.skip <= |o| {
      assert BlockEnd(|o|, plan.skip, None) == |o|;
    }
  }

  /** Corrected, `limit=0` gives at most the next 1000 matches from `skip`. */
  lemma LimitZeroCapped(db: Store, args: QueryArgs, parseIso: string -> Option<int>, plan: Plan)
    requires db.Online? && args.limit == Given(0) && Prepare(args, parseIso) == Success(plan)
    ensures var o := Ordered(db.docs, plan.window, plan.status);
            var corrected := GetData(db, args, parseIso);
            && corrected.Success?
            && corrected.value.items == Block(o, plan.skip, MaxLimit)
  {
    assert plan.limit == 0;
    assert CappedSize(0) == Some(MaxLimit);
    CorrectedPage(db, args, parseIso, plan, MaxLimit);
  }


  /** As written, `limit=0` on an unfiltered first page returns the whole
      collection; corrected, at most 1000 documents. */
  lemma LimitZeroReturnsEverything(docs: seq<Reading>, parseIso: string -> Option<int>)
    ensures var args := QueryArgs(Given(0), Default, None, None, None);
            && GetDataAsWritten(Online(docs), args, parseIso).Success?
            && |GetDataAsWritten(Online(docs), args, parseIso).value.items| == |docs|
            && GetData(Online(docs), args, parseIso).Success?
            && |GetData(Online(docs), args, parseIso).value.items| == Min(|docs|, MaxLimit)
  {
    var args := QueryArgs(Given(0), Default, None, None, None);
    var plan := Plan(0, 0, Everything, None);
    assert Prepare(args, parseIso) == Success(plan) by {
      assert DateBound(None, parseIso) == Some(None);
    }
    assert |Ordered(docs, Everything, None)| == |docs| by {
      SelectAll(docs);
    }
    LimitZeroLiftsCap(Online(docs), args, parseIso, plan);
    LimitZeroCapped(Online(docs), args, parseIso, plan);
  }

  /** As written, a negative limit -n is read by the store as n: the page is
      the next n matches from `skip`, beyond the cap when n exceeds 1000. */
  lemma NegativeLimitReadAsMagnitude(db: Store, args: QueryArgs, parseIso: string -> Option<int>, plan: Plan, n: int)
    requires db.Online? && n > 0 && args.limit == Given(-n) && Prepare(args, parseIso) == Success(plan)
    ensures var o := Ordered(db.docs, plan.window, plan.status);
            var asWritten := GetDataAsWritten(db, args, parseIso);
            && asWritten.Success?
            && asWritten.value.items == Block(o, plan.skip, n)
  {
    assert plan.limit == -n;
    CappedMagnitude(n);
    WrittenPage(db, args, parseIso, plan, n);
  }

  /** Corrected, a negative limit -n gives the next min(n, 1000) matches
      from `skip`. */
  lemma NegativeLimitCapped(db: Store, args: QueryArgs, parseIso: string -> Option<int>, plan: Plan, n: int)
    requires db.Online? && n > 0 && args.limit == Given(-n) && Prepare(args, parseIso) == Success(plan)
    ensures var o := Ordered(db.docs, plan.window, plan.status);
            var corrected := GetData(db, args, parseIso);
            && corrected.Success?
            && corrected.value.items == Block(o, plan.skip, Min(n, MaxLimit))
  {
    assert plan.limit == -n;
    CappedMagnitude(n);
    CorrectedPage(db, args, parseIso, plan, Min(n, MaxLimit));
  }


  /** The corrected reading of a negative limit -n is n, capped at 1000. */
  lemma CappedMagnitude(n: int)
    requires n > 0
    ensures CursorLimit(-n) == Some(n)
    ensures CappedSize(-n) == Some(Min(n, MaxLimit))
  {
  }

  /** When the cursor receives a bound, the as-written page is the block of
      that many matches from `skip`. */
  lemma WrittenPage(db: Store, args: QueryArgs, parseIso: string -> Option<int>, plan: Plan, written: nat)
    requires db.Online? && Prepare(args, parseIso) == Success(plan)
    requires CursorLimit(plan.limit) == Some(written)
    ensures var o := Ordered(db.docs, plan.window, plan.status);
            && GetDataAsWritten(db, args, parseIso).Success?
            && GetDataAsWritten(db, args, parseIso).value.items == Block(o, plan.skip, written)
  {
    PreparedPages(db, args, parseIso, plan);
    ExecuteBlock(db.docs, plan, written);
  }

  /** The corrected page is the block of the capped size from `skip`, and
      reports every match in `total_matching`. */
  lemma CorrectedPage(db: Store, args: QueryArgs, parseIso: string -> Option<int>, plan: Plan, corrected: nat)
    requires db.Online? && Prepare(args, parseIso) == Success(plan)
    requires CappedSize(plan.limit) == Some(corrected)
    ensures var o := Ordered(db.docs, plan.window, plan.status);
            && GetData(db, args, parseIso).Success?
            && GetData(db, args, parseIso).value.items == Block(o, plan.skip, corrected)
            && GetData(db, args, parseIso).value.totalMatching == |Selected(db.docs, plan.window, plan.status)|
  {
    PreparedPages(db, args, parseIso, plan);
    ExecuteBlock(db.docs, plan, corrected);
  }

  /** A sweep assumes the collection does not change between page requests:
      a newer reading stored after page 0 shifts the older one to page 1,
      so with page size 1 the same document is returned twice. */
  lemma NewReadingBetweenPagesRepeats(earlier: Reading, later: Reading)
    requires earlier.stamp.Date? && later.stamp.Date? && later.stamp.t > earlier.stamp.t
    ensures Slice(SortNewestFirst([earlier]), 0, Some(1)) == [earlier]
    ensures Slice(SortNewestFirst([earlier, later]), 1, Some(1)) == [earlier]
  {
    assert SortNewestFirst([earlier]) == [earlier] by {
      SortedOrderUnique([earlier], SortNewestFirst([earlier]));
    }
    assert SortNewestFirst([earlier, later]) == [later, earlier] by {
      assert multiset([later, earlier]) == multiset([earlier, later]);
      assert !Tie(later.stamp, earlier.stamp);
      SortedOrderUnique([later, earlier], SortNewestFirst([earlier, later]));
    }
  }

  /** Page `k` of a sweep with page size `size`. */
  function SweepArgs(args: QueryArgs, size: nat, k: nat): QueryArgs {
    args.(limit := Given(size), skip := Given(Offset(size, k)))
  }

  /** The skip of page `k`: `k * size`, written as a sum so that the proofs stay linear. */
  function Offset(size: nat, k: nat): nat {
    if k == 0 then 0 else Offset(size, k - 1) + size
  }

  lemma OffsetNext(size: nat, k: nat)
    ensures Offset(size, k + 1) == Offset(size, k) + size
  {
  }

  /** The first `n` pages of a sweep, concatenated. */
  function Sweep(db: Store, args: QueryArgs, parseIso: string -> Option<int>, size: nat, n: nat): seq<Reading>
    requires db.Online? && Prepare(args, parseIso).Success?
  {
    if n == 0 then []
    else
      var page := GetData(db, SweepArgs(args, size, n - 1), parseIso);
      Sweep(db, args, parseIso, size, n - 1) + (if page.Success? then page.value.items else [])
  }

  /** Paging through with a fixed limit between 1 and 1000 and skips 0, L, 2L,
      ... yields the matching documents newest first, each exactly once,
      whichever newest-first order the store picks for each page, provided no
      two different matching documents share a timestamp. */
  lemma PaginationSweep(db: Store, args: QueryArgs, parseIso: string -> Option<int>, size: nat, n: nat)
    requires db.Online? && Prepare(args, parseIso).Success?
    requires 1 <= size <= MaxLimit
    requires var plan := Prepare(args, parseIso).value; TieFree(Selected(db.docs, plan.window, plan.status))
    ensures var plan := Prepare(args, parseIso).value;
            forall o :: SortedOrderOf(o, Selected(db.docs, plan.window, plan.status)) ==>
              Sweep(db, args, parseIso, size, n) == o[..Min(Offset(size, n), |o|)]
  {
    var plan := Prepare(args, parseIso).value;
    SweepInOrder(db, args, parseIso, size, n);
    forall o | SortedOrderOf(o, Selected(db.docs, plan.window, plan.status))
      ensures o == Ordered(db.docs, plan.window, plan.status)
    {
      AnyStoreOrderIsOrdered(db.docs, plan.window, plan.status, o);
    }
  }

  /** The sweep over the model's newest-first order. */
  lemma {:induction false} SweepInOrder(db: Store, args: QueryArgs, parseIso: string -> Option<int>, size: nat, n: nat)
    requires db.Online? && Prepare(args, parseIso).Success?
    requires 1 <= size <= MaxLimit
    ensures var plan := Prepare(args, parseIso).value;
            var ordered := Ordered(db.docs, plan.window, plan.status);
            Sweep(db, args, parseIso, size, n) == ordered[..Min(Offset(size, n), |ordered|)]
  {
    if n > 0 {
      var plan := Prepare(args, parseIso).value;
      var ordered := Ordered(db.docs, plan.window, plan.status);
      var m := n - 1;
      assert m + 1 == n;
      var lo := Min(Offset(size, m), |ordered|);
      var hi := Min(Offset(size, n), |ordered|);
      OffsetNext(size, m);
      SweepInOrder(db, args, parseIso, size, m);
      SweepStep(db, args, parseIso, plan, size, m);
      PrefixSplit(ordered, lo, hi);
    }
  }

  /** One more page extends a sweep by the next block of the ordered matches. */
  lemma SweepStep(db: Store, args: QueryArgs, parseIso: string -> Option<int>, plan: Plan, size: nat, m: nat)
    requires db.Online? && Prepare(args, parseIso) == Success(plan)
    requires 1 <= size <= MaxLimit
    ensures var ordered := Ordered(db.docs, plan.window, plan.status);
            Sweep(db, args, parseIso, size, m + 1) == Sweep(db, args, parseIso, size, m) + Block(ordered, Offset(size, m), size)
  {
    PageInOrder(db, args, parseIso, plan, size, m);
  }

  /** When no two matching documents tie, every order the store may return
      is the model's order, so each query sees the same listing. */
  lemma AnyStoreOrderIsOrdered(docs: seq<Reading>, w: Window, status: Option<string>, o: seq<Reading>)
    requires SortedOrderOf(o, Selected(docs, w, status)) && TieFree(Selected(docs, w, status))
    ensures o == Ordered(docs, w, status)
  {
    TieFreePermutation(Selected(docs, w, status), o);
    SortedOrderUnique(o, Ordered(docs, w, status));
  }

  /** With a tie, two queries may each pick a legal order and a two-page sweep
      then returns one document twice and never the other. */
  lemma TiesBreakPagination(a: Reading, b: Reading)
    requires a != b && a.stamp == b.stamp
    ensures SortedOrderOf([a, b], [a, b]) && SortedOrderOf([b, a], [a, b])
    ensures Slice([a, b], 0, Some(1)) + Slice([b, a], 1, Some(1)) == [a, a]
  {
    TiesHaveTwoOrders(a, b);
  }

  lemma PrefixSplit(s: seq<Reading>, lo: nat, hi: nat)
    requires lo <= hi <= |s|
    ensures s[..lo] + s[lo..hi] == s[..hi]
  {
  }

  function Min(a: int, b: int): int {
    if a < b then a else b
  }

  /** Page `k` of a sweep is the `k`-th block of whatever newest-first order
      the store picks, when no two different matches share a timestamp, and it
      reports the same `total_matching` as every other page. */
  lemma PageK(db: Store, args: QueryArgs, parseIso: string -> Option<int>, size: nat, k: nat)
    requires db.Online? && Prepare(args, parseIso).Success?
    requires 1 <= size <= MaxLimit
    requires var plan := Prepare(args, parseIso).value; TieFree(Selected(db.docs, plan.window, plan.status))
    ensures var plan := Prepare(args, parseIso).value;
            var page := GetData(db, SweepArgs(args, size, k), parseIso);
            && page.Success?
            && page.value.totalMatching == |Selected(db.docs, plan.window, plan.status)|
            && forall o :: SortedOrderOf(o, Selected(db.docs, plan.window, plan.status)) ==>
                 page.value.items == Block(o, Offset(size, k), size)
  {
    var plan := Prepare(args, parseIso).value;
    PageInOrder(db, args, parseIso, plan, size, k);
    forall o | SortedOrderOf(o, Selected(db.docs, plan.window, plan.status))
      ensures o == Ordered(db.docs, plan.window, plan.status)
    {
      AnyStoreOrderIsOrdered(db.docs, plan.window, plan.status, o);
    }
  }

  /** Page `k` of a sweep over the model's newest-first order. */
  lemma PageInOrder(db: Store, args: QueryArgs, parseIso: string -> Option<int>, plan: Plan, size: nat, k: nat)
    requires db.Online? && Prepare(args, parseIso) == Success(plan)
    requires 1 <= size <= MaxLimit
    ensures var ordered := Ordered(db.docs, plan.window, plan.status);
            var page := GetData(db, SweepArgs(args, size, k), parseIso);
            && page.Success?
            && page.value.items == Block(ordered, Offset(size, k), size)
            && page.value.totalMatching == |Selected(db.docs, plan.window, plan.status)|
  {
    var skip := Offset(size, k);
    PrepareSweep(args, parseIso, plan, size, k);
    CorrectedPage(db, SweepArgs(args, size, k), parseIso, Plan(size, skip, plan.window, plan.status), size);
  }

  /** A page of a fixed size is the block `[skip, skip + size)` of the
      ordered matches, clipped to their number. */
  lemma ExecuteBlock(docs: seq<Reading>, plan: Plan, size: nat)
    ensures var o := Ordered(docs, plan.window, plan.status);
            Execute(docs, plan, Some(size)).items == Block(o, plan.skip, size)
  {
    var o := Ordered(docs, plan.window, plan.status);
    assert Execute(docs, plan, Some(size)).items == Slice(o, plan.skip, Some(size));
    SliceBlock(o, plan.skip, size);
  }

  /** With a size, skip-then-limit is exactly the clipped block. */
  lemma SliceBlock(o: seq<Reading>, skip: nat, size: nat)
    ensures Slice(o, skip, Some(size)) == Block(o, skip, size)
  {
    if skip <= |o| {
      assert BlockEnd(|o|, skip, Some(size)) == Min(skip + size, |o|);
    }
  }

  /** A sweep's page request parses to the original plan with its own limit and skip. */
  lemma PrepareSweep(args: QueryArgs, parseIso: string -> Option<int>, plan: Plan, size: nat, k: nat)
    requires Prepare(args, parseIso) == Success(plan)
    requires 1 <= size <= MaxLimit
    ensures Prepare(SweepArgs(args, size, k), parseIso) == Success(Plan(size, Offset(size, k), plan.window, plan.status))
  {
    var sweep := SweepArgs(args, size, k);
    assert sweep.startDate == args.startDate && sweep.endDate == args.endDate && sweep.status == args.status;
  }

  /** `get_data` in backend/app.py: the same cap and order, no filter, and only
      `count` in the response. */
  function LegacyGetData(db: Store, limit: IntArg, skip: IntArg): (r: Result<seq<Reading>, QueryError>)
    ensures r.Success? ==> NewestFirst(r.value) && |r.value| <= (if db.Online? then |db.docs| else 0)
  {
    if db.Offline? then Failure(StoreUnavailable)
    else if limit.NotAnInt? || skip.NotAnInt? then Failure(Internal)
    else
      var requested := if limit.Given? then limit.n else 100;
      var capped := if requested < MaxLimit then requested else MaxLimit;
      var from := if skip.Given? then skip.n else 0;
      if from < 0 then Failure(Internal)
      else
        SliceKeepsOrder(SortNewestFirst(db.docs), from, CursorLimit(capped));
        Success(Slice(SortNewestFirst(db.docs), from, CursorLimit(capped)))
  }

  /** The legacy listing is the current one with every filter left empty. */
  lemma LegacyIsUnfilteredQuery(db: Store, limit: IntArg, skip: IntArg, parseIso: string -> Option<int>)
    ensures var current := GetDataAsWritten(db, QueryArgs(limit, skip, None, None, None), parseIso);
            var legacy := LegacyGetData(db, limit, skip);
            && (legacy.Success? <==> current.Success?)
            && (legacy.Success? ==> legacy.value == current.value.items)
  {
    if db.Online? {
      SelectAll(db.docs);
      var args := QueryArgs(limit, skip, None, None, None);
      if !limit.NotAnInt? && !skip.NotAnInt? {
        var requested := if limit.Given? then limit.n else 100;
        var capped := if requested < MaxLimit then requested else MaxLimit;
        var from := if skip.Given? then skip.n else 0;
        if from >= 0 {
          assert Prepare(args, parseIso) == Success(Plan(capped, from, Everything, None));
          assert Ordered(db.docs, Everything, None) == SortNewestFirst(db.docs);
        }
      }
    }
  }
}

=== FILE: report.dfy ===
/** The counting parts of `calcular_estatisticas` and `gerar_relatorio_periodo`
    (backend/utils.py), over a DataFrame: its rows in order, and its columns. */
module Report {
  import opened Wrappers
  import opened Store
  import opened Stats

  /** A DataFrame. A column may exist although every row lacks its value
      (a key that is present but null); it cannot be missing while some row
      has a value, which `Consistent` states. */
  datatype Frame = Frame(rows: seq<Reading>, columns: set<string>)

  predicate SomeTemperature(rows: seq<Reading>) {
    exists i :: 0 <= i < |rows| && rows[i].temperatura.Some?
  }

  predicate SomeHumidity(rows: seq<Reading>) {
    exists i :: 0 <= i < |rows| && rows[i].umidade.Some?
  }

  predicate SomeStatus(rows: seq<Reading>) {
    exists i :: 0 <= i < |rows| && rows[i].status.Some?
  }

  /** Every stored reading carries a timestamp, so a frame with rows has that column. */
  predicate Consistent(f: Frame) {
    && (SomeTemperature(f.rows) ==> "temperatura" in f.columns)
    && (SomeHumidity(f.rows) ==> "umidade" in f.columns)
    && (SomeStatus(f.rows) ==> "status" in f.columns)
    && (f.rows != [] ==> "timestamp" in f.columns)
  }

  /** `DataFrame.empty`: no rows, or no columns. */
  predicate FrameEmpty(f: Frame) {
    f.rows == [] || f.columns == {}
  }

  /** The frame `pd.DataFrame(documents)` builds when no key is ever null:
      a column for every field some document has. */
  function FrameOf(rows: seq<Reading>): (f: Frame)
    ensures Consistent(f) && f.rows == rows
    ensures "status" in f.columns <==> SomeStatus(rows)
  {
    Frame(rows,
      (if SomeTemperature(rows) then {"temperatura"} else {})
      + (if SomeHumidity(rows) then {"umidade"} else {})
      + (if SomeStatus(rows) then {"status"} else {})
      + (if rows != [] then {"timestamp"} else {}))
  }

  /** One field's block: mean, minimum, maximum and `count` (median and
      standard deviation are not modelled). */
  datatype FieldStats = FieldStats(summary: Summary, count: nat)

  /** The statistics dictionary; a key is absent when its `Option` is `None`. */
  datatype FrameStats = FrameStats(temperature: Option<FieldStats>, humidity: Option<FieldStats>,
                                   distribution: Option<map<string, nat>>)

  /** What `calcular_estatisticas` gives: `{}`, the dictionary, or the KeyError
      of indexing a missing column. */
  datatype StatsOutcome = NoStats | Computed(stats: FrameStats) | MissingColumn(name: string)

  function FieldBlock(xs: seq<real>): (f: Option<FieldStats>)
    ensures f.Some? <==> xs != []
    ensures f.Some? ==> f.value.count == |xs| && f.value.summary == Summarize(xs)
  {
    if xs == [] then None else Some(FieldStats(Summarize(xs), |xs|))
  }

  /** `calcular_estatisticas`: `{}` for an empty frame; per field, statistics
      over the non-missing values; `value_counts` of the status column when
      there is one, which drops missing statuses but keeps "". */
  function FrameStatistics(f: Frame): (r: StatsOutcome)
    ensures r.NoStats? <==> FrameEmpty(f)
    ensures r.MissingColumn? <==> !FrameEmpty(f) && ("temperatura" !in f.columns || "umidade" !in f.columns)
    ensures r.MissingColumn? && "temperatura" !in f.columns ==> r.name == "temperatura"
    ensures r.Computed? ==> (r.stats.distribution.Some? <==> "status" in f.columns)
  {
    if FrameEmpty(f) then NoStats
    else if "temperatura" !in f.columns then MissingColumn("temperatura")
    else if "umidade" !in f.columns then MissingColumn("umidade")
    else
      Computed(FrameStats(
        FieldBlock(Temperatures(f.rows)),
        FieldBlock(Humidities(f.rows)),
        if "status" in f.columns then Some(Histogram(f.rows, false)) else None))
  }

  /** Each `count` is the number of non-missing values of its field, and the
      status counts add up to the number of rows with a status. */
  lemma FrameCounts(f: Frame)
    requires FrameStatistics(f).Computed?
    ensures var s := FrameStatistics(f).stats;
            && (s.temperature.Some? <==> CountTemperatures(f.rows) > 0)
            && (s.temperature.Some? ==> s.temperature.value.count == CountTemperatures(f.rows))
            && (s.humidity.Some? <==> CountHumidities(f.rows) > 0)
            && (s.humidity.Some? ==> s.humidity.value.count == CountHumidities(f.rows))
            && (s.distribution.Some? ==> MapSum(s.distribution.value) == CountKeyed(f.rows, false))
  {
    PresentValuesCounted(f.rows);
    HistogramTotal(f.rows, false);
  }

  /** `value_counts` keeps an empty status, which `get_stats` drops. */
  lemma EmptyStatusKeptByValueCounts(r: Reading)
    requires r.temperatura.Some? && r.umidade.Some? && r.status == Some("")
    ensures FrameStatistics(FrameOf([r])).Computed?
    ensures FrameStatistics(FrameOf([r])).stats.distribution == Some(map["" := 1])
    ensures Histogram([r], true) == map[]
  {
    var rows := [r];
    assert SomeTemperature(rows) && SomeHumidity(rows) && SomeStatus(rows) by {
      assert rows[0] == r;
    }
    assert rows[..0] == [];
    assert Histogram(rows, false) == map["" := 1];
  }

  /** The outcomes of `gerar_relatorio_periodo`. */
  datatype Outcome =
    | NoData
    | IncomparableTimestamp
    | NoDataInPeriod(hours: int)
    | MissingColumnError(name: string)
    | PeriodReport(total: nat, stats: FrameStats, totalAlerts: nat, recentAlerts: Option<seq<Reading>>)

  function InPeriod(start: int): Reading -> bool {
    (x: Reading) => x.stamp.Date? && x.stamp.t >= start
  }

  /** Rows stamped at or after `start`. Only applied when every row has a
      date: a non-date timestamp stored verbatim makes the comparison raise a
      TypeError (`Comparable`). */
  function Since(rows: seq<Reading>, start: int): seq<Reading> {
    Filter(rows, InPeriod(start))
  }

  /** A row whose timestamp is not a date. */
  predicate SomeNonDate(rows: seq<Reading>) {
    exists i :: 0 <= i < |rows| && rows[i].stamp.NotADate?
  }

  /** `dados['timestamp'] >= inicio_periodo` can be evaluated: there is no
      timestamp column, or every timestamp is a date. */
  predicate Comparable(f: Frame) {
    "timestamp" in f.columns ==> !SomeNonDate(f.rows)
  }

  /** The rows of the period: every row when the frame has no timestamp column. */
  function Period(f: Frame, hours: int, now: int): seq<Reading> {
    if "timestamp" in f.columns then Since(f.rows, now - hours * 3600) else f.rows
  }

  /** `status != 'normal'`, true for a missing status (NaN is unequal to everything). */
  predicate IsAlert(r: Reading) {
    r.status != Some("normal")
  }

  function Alerts(rows: seq<Reading>): (a: seq<Reading>)
    ensures forall i :: 0 <= i < |a| ==> IsAlert(a[i])
  {
    Filter(rows, IsAlert)
  }

  /** The last `n` elements (all of them when there are fewer), as `tail(n)`. */
  function Tail(s: seq<Reading>, n: nat): (t: seq<Reading>)
    ensures |t| == if |s| < n then |s| else n
    ensures t == s[|s| - |t|..]
  {
    if |s| <= n then s else s[|s| - n..]
  }

  /** `gerar_relatorio_periodo(dados, periodo_horas)` at time `now` (seconds). */
  function GenerateReport(f: Frame, hours: int, now: int): (r: Outcome)
    ensures r == NoData <==> FrameEmpty(f)
    ensures r == IncomparableTimestamp <==> !FrameEmpty(f) && !Comparable(f)
    ensures r.NoDataInPeriod? <==> !FrameEmpty(f) && Comparable(f) && Period(f, hours, now) == []
    ensures r.MissingColumnError? ==> r.name in {"temperatura", "umidade", "status"} && r.name !in f.columns
    ensures r.PeriodReport? <==>
              && Comparable(f) && Period(f, hours, now) != []
              && "temperatura" in f.columns && "umidade" in f.columns && "status" in f.columns
    ensures r.PeriodReport? ==>
              && r.total == |Period(f, hours, now)|
              && r.totalAlerts == |Alerts(Period(f, hours, now))|
              && r.stats == FrameStatistics(Frame(Period(f, hours, now), f.columns)).stats
  {
    if FrameEmpty(f) then NoData
    else if !Comparable(f) then IncomparableTimestamp
    else
      var period := Period(f, hours, now);
      if period == [] then NoDataInPeriod(hours)
      else
        match FrameStatistics(Frame(period, f.columns))
        case MissingColumn(name) => MissingColumnError(name)
        case Computed(stats) =>
          if "status" !in f.columns then MissingColumnError("status")
          else
            var alerts := Alerts(period);
            PeriodReport(|period|, stats, |alerts|,
                         if alerts == [] then None else Some(Tail(alerts, 5)))
  }

  /** The alert count covers every in-period row whose status is not "normal",
      and the recent list is the last (at most five) of those rows, in order. */
  lemma RecentAlerts(f: Frame, hours: int, now: int)
    requires GenerateReport(f, hours, now).PeriodReport?
    ensures var r := GenerateReport(f, hours, now);
            var alerts := Alerts(Period(f, hours, now));
            && (r.recentAlerts.None? <==> r.totalAlerts == 0)
            && (r.recentAlerts.Some? ==>
                  && |r.recentAlerts.value| == (if r.totalAlerts < 5 then r.totalAlerts else 5)
                  && r.recentAlerts.value == alerts[|alerts| - |r.recentAlerts.value|..]
                  && forall i :: 0 <= i < |r.recentAlerts.value| ==>
                       IsAlert(r.recentAlerts.value[i])
                       && r.recentAlerts.value[i] in Period(f, hours, now))
  {
    var period := Period(f, hours, now);
    var alerts := Alerts(period);
    var r := GenerateReport(f, hours, now);
    assert r.recentAlerts == if alerts == [] then None else Some(Tail(alerts, 5));
    if alerts != [] {
      TailMembers(alerts, 5, period);
    }
  }

  lemma TailMembers(alerts: seq<Reading>, n: nat, period: seq<Reading>)
    requires alerts == Alerts(period)
    ensures forall i :: 0 <= i < |Tail(alerts, n)| ==> IsAlert(Tail(alerts, n)[i]) && Tail(alerts, n)[i] in period
  {
    var t := Tail(alerts, n);
    var off := |alerts| - |t|;
    forall i | 0 <= i < |t| ensures IsAlert(t[i]) && t[i] in period {
      var x := alerts[off + i];
      assert t[i] == x;
      assert x in alerts;
    }
  }

  /** A missing status counts as an alert: of a "normal" row and a row without
      status, only the latter is reported. */
  lemma MissingStatusIsAlert(normal: Reading, unlabelled: Reading)
    requires normal.status == Some("normal") && unlabelled.status.None?
    ensures Alerts([normal, unlabelled]) == [unlabelled]
  {
    FilterAppend([], normal, IsAlert);
    FilterAppend([normal], unlabelled, IsAlert);
    assert [normal] + [unlabelled] == [normal, unlabelled];
  }

  /** The status column is decided by the whole frame: a period whose rows all
      lack a status still reports an (empty) distribution, whereas a frame with
      no status column at all fails with a KeyError. */
  lemma StatusColumnIsFrameWide(f: Frame, hours: int, now: int)
    requires Comparable(f) && Period(f, hours, now) != []
    requires "temperatura" in f.columns && "umidade" in f.columns
    ensures "status" !in f.columns ==> GenerateReport(f, hours, now) == MissingColumnError("status")
    ensures "status" in f.columns ==> GenerateReport(f, hours, now).stats.distribution.Some?
  {
  }
}

=== FILE: stats.dfy ===
/** Summary statistics: the numeric aggregates and the status histogram of
    `get_stats` (backend/main.py, backend/app.py), shared with the DataFrame
    statistics of backend/utils.py. */
module Stats {
  import opened Wrappers
  import opened Store
  import Query

  // ---------------------------------------------------------------- numbers

  function Sum(xs: seq<real>): real {
    if xs == [] then 0.0 else Sum(xs[..|xs| - 1]) + xs[|xs| - 1]
  }

  /** The smallest element, as `$min` / `Series.min` return it. */
  function Min(xs: seq<real>): (m: real)
    requires xs != []
    ensures m in xs
    ensures forall i :: 0 <= i < |xs| ==> m <= xs[i]
  {
    if |xs| == 1 then xs[0]
    else
      var rest := Min(xs[..|xs| - 1]);
      assert forall i :: 0 <= i < |xs| - 1 ==> xs[..|xs| - 1][i] == xs[i];
      if xs[|xs| - 1] < rest then xs[|xs| - 1] else rest
  }

  /** The largest element, as `$max` / `Series.max` return it. */
  function Max(xs: seq<real>): (m: real)
    requires xs != []
    ensures m in xs
    ensures forall i :: 0 <= i < |xs| ==> xs[i] <= m
  {
    if |xs| == 1 then xs[0]
    else
      var rest := Max(xs[..|xs| - 1]);
      assert forall i :: 0 <= i < |xs| - 1 ==> xs[..|xs| - 1][i] == xs[i];
      if xs[|xs| - 1] > rest then xs[|xs| - 1] else rest
  }

  /** A sum of values that all lie in `[lo, hi]` lies in `[n * lo, n * hi]`. */
  lemma {:induction false} SumBounds(xs: seq<real>, lo: real, hi: real)
    requires forall i :: 0 <= i < |xs| ==> lo <= xs[i] <= hi
    ensures |xs| as real * lo <= Sum(xs) <= |xs| as real * hi
  {
    if xs != [] {
      var init := xs[..|xs| - 1];
      assert forall i :: 0 <= i < |init| ==> init[i] == xs[i];
      SumBounds(init, lo, hi);
      assert |xs| as real * lo == |init| as real * lo + lo;
      assert |xs| as real * hi == |init| as real * hi + hi;
    }
  }

  lemma DivisionBounds(total: real, n: real, lo: real, hi: real)
    requires n > 0.0 && n * lo <= total <= n * hi
    ensures lo <= total / n <= hi
    ensures total / n * n == total
  {
    assert total / n * n == total;
  }

  /** Mean, minimum and maximum of one field. */
  datatype Summary = Summary(avg: real, min: real, max: real)

  /** The mean lies between the extremes, and the extremes are attained. */
  function Summarize(xs: seq<real>): (s: Summary)
    requires xs != []
    ensures s.min <= s.avg <= s.max
    ensures s.min in xs && s.max in xs
    ensures forall i :: 0 <= i < |xs| ==> s.min <= xs[i] <= s.max
    ensures s.avg * |xs| as real == Sum(xs)
  {
    var lo := Min(xs);
    var hi := Max(xs);
    SumBounds(xs, lo, hi);
    DivisionBounds(Sum(xs), |xs| as real, lo, hi);
    Summary(Sum(xs) / |xs| as real, lo, hi)
  }

  /** The present temperatures, in store order (`dropna`, or `$avg` skipping nulls). */
  function Temperatures(s: seq<Reading>): (xs: seq<real>)
    ensures |xs| <= |s|
  {
    if s == [] then []
    else
      var last := s[|s| - 1];
      Temperatures(s[..|s| - 1]) + (if last.temperatura.Some? then [last.temperatura.value] else [])
  }

  /** The present humidities, in store order. */
  function Humidities(s: seq<Reading>): (xs: seq<real>)
    ensures |xs| <= |s|
  {
    if s == [] then []
    else
      var last := s[|s| - 1];
      Humidities(s[..|s| - 1]) + (if last.umidade.Some? then [last.umidade.value] else [])
  }

  /** The number of present temperatures / humidities. */
  function CountTemperatures(s: seq<Reading>): nat {
    if s == [] then 0 else CountTemperatures(s[..|s| - 1]) + (if s[|s| - 1].temperatura.Some? then 1 else 0)
  }

  function CountHumidities(s: seq<Reading>): nat {
    if s == [] then 0 else CountHumidities(s[..|s| - 1]) + (if s[|s| - 1].umidade.Some? then 1 else 0)
  }

  /** `count` of a field is the number of rows where that field is present. */
  lemma {:induction false} PresentValuesCounted(s: seq<Reading>)
    ensures |Temperatures(s)| == CountTemperatures(s)
    ensures |Humidities(s)| == CountHumidities(s)
    ensures (forall i :: 0 <= i < |s| ==> s[i].temperatura.Some?) ==> |Temperatures(s)| == |s|
    ensures (forall i :: 0 <= i < |s| ==> s[i].umidade.Some?) ==> |Humidities(s)| == |s|
  {
    if s != [] {
      PresentValuesCounted(s[..|s| - 1]);
    }
  }

  // -------------------------------------------------------------- histogram

  /** The group key of a document: its status, with "" dropped when `dropEmpty`
      (the `if item['_id']` filter of `get_stats`; `value_counts` keeps it). */
  function KeyOf(r: Reading, dropEmpty: bool): Option<string> {
    if r.status.Some? && !(dropEmpty && r.status.value == "") then r.status else None
  }

  /** The number of documents grouped under `k`. */
  function CountKey(s: seq<Reading>, dropEmpty: bool, k: string): nat {
    if s == [] then 0
    else CountKey(s[..|s| - 1], dropEmpty, k) + (if KeyOf(s[|s| - 1], dropEmpty) == Some(k) then 1 else 0)
  }

  /** The number of documents that have a group key at all. */
  function CountKeyed(s: seq<Reading>, dropEmpty: bool): nat {
    if s == [] then 0
    else CountKeyed(s[..|s| - 1], dropEmpty) + (if KeyOf(s[|s| - 1], dropEmpty).Some? then 1 else 0)
  }

  /** The status histogram, built one document at a time. */
  function Histogram(s: seq<Reading>, dropEmpty: bool): map<string, nat> {
    if s == [] then map[]
    else
      var h := Histogram(s[..|s| - 1], dropEmpty);
      var key := KeyOf(s[|s| - 1], dropEmpty);
      if key.None? then h
      else h[key.value := (if key.value in h then h[key.value] else 0) + 1]
  }

  /** Each label maps to the number of documents carrying it; labels with no
      document (and, when dropped, "") do not appear. */
  lemma {:induction false} HistogramCounts(s: seq<Reading>, dropEmpty: bool, k: string)
    ensures k in Histogram(s, dropEmpty) <==> CountKey(s, dropEmpty, k) > 0
    ensures k in Histogram(s, dropEmpty) ==> Histogram(s, dropEmpty)[k] == CountKey(s, dropEmpty, k)
    ensures dropEmpty ==> "" !in Histogram(s, dropEmpty)
  {
    if s != [] {
      HistogramCounts(s[..|s| - 1], dropEmpty, k);
      HistogramCounts(s[..|s| - 1], dropEmpty, "");
    }
  }

  /** The sum of a map's values. */
  ghost function MapSum(m: map<string, nat>): nat
    decreases |m|
  {
    if |m| == 0 then 0
    else
      var k :| k in m;
      m[k] + MapSum(m - {k})
  }

  lemma MapRemoveSize(m: map<string, nat>, j: string)
    requires j in m
    ensures |m - {j}| == |m| - 1
  {
    assert (m - {j}).Keys == m.Keys - {j};
  }

  /** Any key can be taken out first. */
  lemma {:induction false} MapSumRemove(m: map<string, nat>, k: string)
    requires k in m
    ensures MapSum(m) == m[k] + MapSum(m - {k})
    decreases |m|, 1
  {
    var j :| j in m && MapSum(m) == m[j] + MapSum(m - {j});
    if j != k {
      MapSumSwap(m, j, k);
    }
  }

  lemma {:induction false} MapSumSwap(m: map<string, nat>, j: string, k: string)
    requires j in m && k in m && j != k
    requires MapSum(m) == m[j] + MapSum(m - {j})
    ensures MapSum(m) == m[k] + MapSum(m - {k})
    decreases |m|, 0
  {
    MapRemoveSize(m, j);
    MapRemoveSize(m, k);
    var mj := m - {j};
    var mk := m - {k};
    assert k in mj && j in mk;
    MapSumRemove(mj, k);
    MapSumRemove(mk, j);
    assert mj - {k} == mk - {j};
  }

  lemma MapSumUpdate(m: map<string, nat>, k: string, v: nat)
    ensures MapSum(m[k := v]) == MapSum(m) - (if k in m then m[k] else 0) + v
  {
    MapSumRemove(m[k := v], k);
    if k in m {
      MapSumRemove(m, k);
      assert m[k := v] - {k} == m - {k};
    } else {
      assert m[k := v] - {k} == m;
    }
  }

  /** The histogram's counts add up to the number of documents with a key. */
  lemma {:induction false} HistogramTotal(s: seq<Reading>, dropEmpty: bool)
    ensures MapSum(Histogram(s, dropEmpty)) == CountKeyed(s, dropEmpty)
  {
    if s == [] {
      assert Histogram(s, dropEmpty) == map[];
    } else {
      var h := Histogram(s[..|s| - 1], dropEmpty);
      HistogramTotal(s[..|s| - 1], dropEmpty);
      var key := KeyOf(s[|s| - 1], dropEmpty);
      if key.Some? {
        MapSumUpdate(h, key.value, (if key.value in h then h[key.value] else 0) + 1);
      }
    }
  }

  // ------------------------------------------------------------- endpoints

  datatype StatsError = StoreUnavailable | BadStartDate | BadEndDate | NotFound | Internal

  function HttpCode(e: StatsError): int {
    match e
    case StoreUnavailable => 503
    case NotFound => 404
    case Internal => 500
    case _ => 400
  }

  /** The `stats` object: aggregates only when at least one complete reading
      matched; the valid-reading count and the histogram always. */
  datatype Report = Report(temperature: Option<Summary>, humidity: Option<Summary>,
                           validCount: nat, distribution: map<string, nat>)

  /** The documents in the date window. */
  function InRange(docs: seq<Reading>, w: Window): seq<Reading> {
    Filter(docs, InWindowOf(w))
  }

  function InWindowOf(w: Window): Reading -> bool {
    (x: Reading) => InWindow(x, w)
  }

  predicate Complete(r: Reading) {
    r.temperatura.Some? && r.umidade.Some?
  }

  /** The documents in the window with both fields present (`$ne: None`). */
  function CompleteIn(docs: seq<Reading>, w: Window): (r: seq<Reading>)
    ensures forall i :: 0 <= i < |r| ==> Complete(r[i]) && InWindow(r[i], w)
    ensures forall x :: multiset(r)[x] == if Complete(x) && InWindow(x, w) then multiset(docs)[x] else 0
  {
    Filter(InRange(docs, w), Complete)
  }

  /** The window the date arguments describe (unparseable ones are reported as errors before use). */
  function WindowFrom(startDate: Option<string>, endDate: Option<string>, parseIso: string -> Option<int>): Window {
    Window(Query.DateBound(startDate, parseIso).GetOr(None), Query.DateBound(endDate, parseIso).GetOr(None))
  }

  /** `get_stats` (backend/main.py). */
  function GetStats(db: Store, startDate: Option<string>, endDate: Option<string>,
                    parseIso: string -> Option<int>): (r: Result<Report, StatsError>)
    ensures r == Failure(StoreUnavailable) <==> db.Offline?
    ensures r == Failure(BadStartDate) <==> db.Online? && Query.DateBound(startDate, parseIso).None?
    ensures r == Failure(BadEndDate) <==>
              db.Online? && Query.DateBound(startDate, parseIso).Some? && Query.DateBound(endDate, parseIso).None?
    ensures r.Success? <==>
              db.Online? && Query.DateBound(startDate, parseIso).Some? && Query.DateBound(endDate, parseIso).Some?
    ensures r.Success? ==> (r.value.temperature.Some? <==> r.value.validCount > 0)
    ensures r.Success? ==> (r.value.humidity.Some? <==> r.value.validCount > 0)
    ensures r.Success? ==> r.value.validCount == |CompleteIn(db.docs, WindowFrom(startDate, endDate, parseIso))|
    ensures r.Success? ==> r.value.distribution == Histogram(InRange(db.docs, WindowFrom(startDate, endDate, parseIso)), true)
    ensures r.Success? && r.value.temperature.Some? ==>
      var w := WindowFrom(startDate, endDate, parseIso);
      && r.value.temperature.value == Summarize(Temperatures(CompleteIn(db.docs, w)))
      && r.value.humidity.value == Summarize(Humidities(CompleteIn(db.docs, w)))
  {
    if db.Offline? then Failure(StoreUnavailable)
    else
      var start := Query.DateBound(startDate, parseIso);
      var end := Query.DateBound(endDate, parseIso);
      if start.None? then Failure(BadStartDate)
      else if end.None? then Failure(BadEndDate)
      else
        var w := Window(start.value, end.value);
        var valid := CompleteIn(db.docs, w);
        var hist := Histogram(InRange(db.docs, w), true);
        if |valid| > 0 then
          PresentValuesCounted(valid);
          Success(Report(Some(Summarize(Temperatures(valid))), Some(Summarize(Humidities(valid))), |valid|, hist))
        else
          Success(Report(None, None, 0, hist))
  }

  /** The histogram covers every document in the window that has a non-empty
      status, incomplete ones included, and counts each exactly once. */
  lemma StatsDistribution(db: Store, startDate: Option<string>, endDate: Option<string>,
                          parseIso: string -> Option<int>, k: string)
    requires GetStats(db, startDate, endDate, parseIso).Success?
    ensures var w := WindowFrom(startDate, endDate, parseIso);
            var d := GetStats(db, startDate, endDate, parseIso).value.distribution;
            && (k in d <==> k != "" && CountKey(InRange(db.docs, w), true, k) > 0)
            && (k in d ==> d[k] == CountKey(InRange(db.docs, w), true, k))
            && MapSum(d) == CountKeyed(InRange(db.docs, w), true)
  {
    var w := WindowFrom(startDate, endDate, parseIso);
    HistogramCounts(InRange(db.docs, w), true, k);
    HistogramTotal(InRange(db.docs, w), true);
    if k == "" {
      assert KeyOf(Reading(None, None, NotADate, Some("")), true).None?;
    }
  }

  /** A window with no complete reading is still a success: count 0, no
      aggregates, and the distribution of whatever statuses the window holds. */
  lemma EmptyWindowIsSuccess(db: Store, startDate: Option<string>, endDate: Option<string>,
                             parseIso: string -> Option<int>)
    requires db.Online?
    requires Query.DateBound(startDate, parseIso).Some? && Query.DateBound(endDate, parseIso).Some?
    requires CompleteIn(db.docs, WindowFrom(startDate, endDate, parseIso)) == []
    ensures GetStats(db, startDate, endDate, parseIso)
            == Success(Report(None, None, 0, Histogram(InRange(db.docs, WindowFrom(startDate, endDate, parseIso)), true)))
  {
  }

  /** The legacy statistics object: averages over non-null values, and the count of all documents. */
  datatype LegacyReport = LegacyReport(temperature: Summary, humidity: Summary, total: nat)

  /** `get_stats` (backend/app.py): no date filter and no null filter; an empty
      collection is a 404; a collection with no numeric temperature (or
      humidity) makes `round(None)` raise, a 500. */
  function LegacyGetStats(db: Store): (r: Result<LegacyReport, StatsError>)
    ensures r == Failure(StoreUnavailable) <==> db.Offline?
    ensures r == Failure(NotFound) <==> db.Online? && db.docs == []
    ensures r == Failure(Internal) <==>
              db.Online? && db.docs != [] && (Temperatures(db.docs) == [] || Humidities(db.docs) == [])
    ensures r.Success? ==> db.Online? && r.value.total == |db.docs| && r.value.total > 0
    ensures r.Success? ==> && Temperatures(db.docs) != [] && r.value.temperature == Summarize(Temperatures(db.docs))
                           && Humidities(db.docs) != [] && r.value.humidity == Summarize(Humidities(db.docs))
  {
    if db.Offline? then Failure(StoreUnavailable)
    else if db.docs == [] then Failure(NotFound)
    else
      var temps := Temperatures(db.docs);
      var hums := Humidities(db.docs);
      if temps == [] || hums == [] then Failure(Internal)
      else Success(LegacyReport(Summarize(temps), Summarize(hums), |db.docs|))
  }

  /** Where the current endpoint answers success with zero readings, the legacy
      one answers 404. */
  lemma EmptyCollectionCodes(parseIso: string -> Option<int>)
    ensures GetStats(Online([]), None, None, parseIso).Success?
    ensures HttpCode(LegacyGetStats(Online([])).error) == 404
  {
  }

  /** The legacy statistics and the current ones agree on a collection of
      complete readings with no date filter: same extremes and means over
      the same values, and the legacy total is the valid count. */
  lemma {:induction false} LegacyAgreesOnCompleteReadings(docs: seq<Reading>, parseIso: string -> Option<int>)
    requires docs != []
    requires forall i :: 0 <= i < |docs| ==> Complete(docs[i])
    ensures LegacyGetStats(Online(docs)).Success?
    ensures var legacy := LegacyGetStats(Online(docs)).value;
            var current := GetStats(Online(docs), None, None, parseIso).value;
            && current.temperature == Some(legacy.temperature)
            && current.humidity == Some(legacy.humidity)
            && current.validCount == legacy.total
  {
    AllInEverything(docs);
    AllComplete(docs);
    PresentValuesCounted(docs);
    assert WindowFrom(None, None, parseIso) == Everything;
    assert CompleteIn(docs, Everything) == docs;
    assert Temperatures(docs) != [] && Humidities(docs) != [];
  }

  /** With no date bounds, every document is in the window. */
  lemma {:induction false} AllInEverything(docs: seq<Reading>)
    ensures InRange(docs, Everything) == docs
  {
    if docs != [] {
      var init, last := docs[..|docs| - 1], docs[|docs| - 1];
      assert docs == init + [last];
      AllInEverything(init);
      FilterAppend(init, last, InWindowOf(Everything));
    }
  }

  /** Filtering complete readings for completeness keeps them all. */
  lemma {:induction false} AllComplete(docs: seq<Reading>)
    requires forall i :: 0 <= i < |docs| ==> Complete(docs[i])
    ensures Filter(docs, Complete) == docs
  {
    if docs != [] {
      var init, last := docs[..|docs| - 1], docs[|docs| - 1];
      assert docs == init + [last];
      assert forall i :: 0 <= i < |init| ==> init[i] == docs[i];
      AllComplete(init);
      FilterAppend(init, last, Complete);
    }
  }
}

=== FILE: status.dfy ===
/** The server-side status classifier, `determinar_status` in backend/utils.py:
    a first-match decision list over a reading and the eight thresholds. */
module Status {
  import opened Wrappers
  import opened PyValue
  import opened Config

  /** The seven labels a reading can carry. */
  datatype Status =
    | Normal
    | AlertTemperature
    | CriticalTemperature
    | AlertHumidity
    | CriticalHumidity
    | SensorError
    | ReadingError

  /** The label as it is stored and served. */
  function Label(s: Status): string {
    match s
    case Normal => "normal"
    case AlertTemperature => "alerta_temperatura"
    case CriticalTemperature => "critico_temperatura"
    case AlertHumidity => "alerta_umidade"
    case CriticalHumidity => "critico_umidade"
    case SensorError => "erro_sensor"
    case ReadingError => "erro_leitura"
  }

  /** Reads a stored label back; any other string is not a status. */
  function ParseLabel(text: string): Option<Status> {
    if text == "normal" then Some(Normal)
    else if text == "alerta_temperatura" then Some(AlertTemperature)
    else if text == "critico_temperatura" then Some(CriticalTemperature)
    else if text == "alerta_umidade" then Some(AlertHumidity)
    else if text == "critico_umidade" then Some(CriticalHumidity)
    else if text == "erro_sensor" then Some(SensorError)
    else if text == "erro_leitura" then Some(ReadingError)
    else None
  }

  /** Labels are distinct and read back to the status they name. */
  lemma LabelRoundTrip(s: Status, text: string)
    ensures ParseLabel(Label(s)) == Some(s)
    ensures ParseLabel(text) == Some(s) ==> text == Label(s)
  {
  }

  /** The threshold part of the decision list, applied to two converted doubles.
      Every comparison is strict, so a value equal to a bound takes the milder label. */
  function ByThresholds(temp: Float, hum: Float, b: Thresholds): Status {
    if Below(temp, -50.0) || Above(temp, 100.0) then SensorError
    else if Below(hum, 0.0) || Above(hum, 100.0) then SensorError
    else if Below(temp, b.tempMinCritical) || Above(temp, b.tempMaxCritical) then CriticalTemperature
    else if Below(temp, b.tempMinAlert) || Above(temp, b.tempMaxAlert) then AlertTemperature
    else if Below(hum, b.humMinCritical) || Above(hum, b.humMaxCritical) then CriticalHumidity
    else if Below(hum, b.humMinAlert) || Above(hum, b.humMaxAlert) then AlertHumidity
    else Normal
  }

  /** `determinar_status` exactly as written: `pd.isna` screens None and NaN,
      `float()` failures are caught, and the converted values go straight to the
      threshold checks. A NaN that arrives as text passes `pd.isna`, and since
      every comparison with NaN is false it falls through to a threshold label. */
  function ClassifyAsWritten(temp: Value, hum: Value, b: Thresholds, parse: string -> Option<Float>): (r: Status)
    ensures r == ReadingError ==> IsNa(temp) || IsNa(hum) || ToFloat(temp, parse).Failure? || ToFloat(hum, parse).Failure?
  {
    if IsNa(temp) || IsNa(hum) then ReadingError
    else match (ToFloat(temp, parse), ToFloat(hum, parse))
      case (Success(t), Success(h)) => ByThresholds(t, h, b)
      case _ => ReadingError
  }

  /** `determinar_status` with a NaN produced by `float()` also reported as a
      reading error, which is what the `pd.isna` screen is there for. The rest of
      the model uses this definition. */
  function Classify(temp: Value, hum: Value, b: Thresholds, parse: string -> Option<Float>): (r: Status)
    ensures ToFloat(temp, parse) == Success(NaN) || ToFloat(hum, parse) == Success(NaN) ==> r == ReadingError
  {
    if IsNa(temp) || IsNa(hum) then ReadingError
    else match (ToFloat(temp, parse), ToFloat(hum, parse))
      case (Success(t), Success(h)) => if t.NaN? || h.NaN? then ReadingError else ByThresholds(t, h, b)
      case _ => ReadingError
  }

  /** `v` is present, `float(v)` succeeds, and the result lies in `[lo, hi]`. */
  predicate ReadsWithin(v: Value, parse: string -> Option<Float>, lo: real, hi: real) {
    !IsNa(v) && ToFloat(v, parse).Success? && Within(ToFloat(v, parse).value, lo, hi)
  }

  /** `v` is present and `float(v)` yields a number that is not NaN. */
  predicate ReadsAsNumber(v: Value, parse: string -> Option<Float>) {
    !IsNa(v) && ToFloat(v, parse).Success? && !ToFloat(v, parse).value.NaN?
  }

  /** A missing or unconvertible value is a reading error and nothing else is:
      the classifier never raises. */
  lemma ReadingErrorIff(temp: Value, hum: Value, b: Thresholds, parse: string -> Option<Float>)
    ensures Classify(temp, hum, b, parse) == ReadingError
        <==> !ReadsAsNumber(temp, parse) || !ReadsAsNumber(hum, parse)
    ensures (IsNa(temp) || IsNa(hum) || ToFloat(temp, parse).Failure? || ToFloat(hum, parse).Failure?)
        ==> ClassifyAsWritten(temp, hum, b, parse) == ReadingError
  {
  }

  /** A value outside the physical range (-50..100 degrees, 0..100 percent) is a
      sensor error under every configuration, before any threshold is consulted. */
  lemma PhysicalRangeFirst(temp: Value, hum: Value, b: Thresholds, parse: string -> Option<Float>)
    requires ReadsAsNumber(temp, parse) && ReadsAsNumber(hum, parse)
    ensures Classify(temp, hum, b, parse) == SensorError
        <==> !ReadsWithin(temp, parse, -50.0, 100.0) || !ReadsWithin(hum, parse, 0.0, 100.0)
  {
    var t := ToFloat(temp, parse).value;
    var h := ToFloat(hum, parse).value;
    WithinMeansNeitherBelowNorAbove(t, -50.0, 100.0);
    WithinMeansNeitherBelowNorAbove(h, 0.0, 100.0);
    if Within(t, -50.0, 100.0) && Within(h, 0.0, 100.0) {
      assert ByThresholds(t, h, b) != SensorError;
    }
  }

  /** Temperature is decided first: a critical temperature wins whatever the
      humidity, and a humidity label appears only when the temperature lies in
      its closed alert interval. */
  lemma TemperatureDecidedFirst(temp: Value, hum: Value, b: Thresholds, parse: string -> Option<Float>)
    ensures ReadsWithin(temp, parse, -50.0, 100.0) && ReadsWithin(hum, parse, 0.0, 100.0)
            && !ReadsWithin(temp, parse, b.tempMinCritical, b.tempMaxCritical)
        ==> Classify(temp, hum, b, parse) == CriticalTemperature
    ensures Classify(temp, hum, b, parse) in {CriticalHumidity, AlertHumidity}
        ==> ReadsWithin(temp, parse, b.tempMinAlert, b.tempMaxAlert)
            && ReadsWithin(temp, parse, b.tempMinCritical, b.tempMaxCritical)
  {
  }

  /** For a configuration that passes validation, `normal` means exactly: both
      values present, in physical range, and each inside its closed alert interval. */
  lemma NormalIff(temp: Value, hum: Value, b: Thresholds, parse: string -> Option<Float>)
    requires BandsOrdered(b)
    ensures Classify(temp, hum, b, parse) == Normal
        <==> && ReadsWithin(temp, parse, -50.0, 100.0) && ReadsWithin(hum, parse, 0.0, 100.0)
             && ReadsWithin(temp, parse, b.tempMinAlert, b.tempMaxAlert)
             && ReadsWithin(hum, parse, b.humMinAlert, b.humMaxAlert)
  {
  }

  /** The two definitions differ only where a value that `pd.isna` accepts converts to NaN. */
  lemma AsWrittenAgreesUnlessTextNaN(temp: Value, hum: Value, b: Thresholds, parse: string -> Option<Float>)
    requires ToFloat(temp, parse) != Success(NaN) || IsNa(temp)
    requires ToFloat(hum, parse) != Success(NaN) || IsNa(hum)
    ensures ClassifyAsWritten(temp, hum, b, parse) == Classify(temp, hum, b, parse)
  {
  }

  /** A parser that reads only the text "nan" (as Python's `float` does, among others). */
  function NanOnlyParser(): string -> Option<Float> {
    s => if s == "nan" then Some(NaN) else None
  }

  /** The text "nan" with a normal humidity is labelled `normal` as written, and
      `erro_leitura` by the corrected classifier. */
  lemma TextNaNIsNormalAsWritten()
    ensures ClassifyAsWritten(VStr("nan"), VNum(Num(50.0)), DefaultThresholds, NanOnlyParser()) == Normal
    ensures Classify(VStr("nan"), VNum(Num(50.0)), DefaultThresholds, NanOnlyParser()) == ReadingError
  {
  }

  /** Bounds are compared strictly: with the default bands, humidity 95 (the
      critical maximum) is only an alert, and temperature 40 is only an alert. */
  lemma BoundsFallInMilderBand(parse: string -> Option<Float>)
    ensures Classify(VNum(Num(20.0)), VNum(Num(95.0)), DefaultThresholds, parse) == AlertHumidity
    ensures Classify(VNum(Num(40.0)), VNum(Num(50.0)), DefaultThresholds, parse) == AlertTemperature
    ensures Classify(VNum(Num(35.0)), VNum(Num(50.0)), DefaultThresholds, parse) == AlertTemperature
    ensures Classify(VNum(Num(45.0)), VNum(Num(50.0)), DefaultThresholds, parse) == CriticalTemperature
    ensures Classify(VNum(Num(150.0)), VNum(Num(50.0)), DefaultThresholds, parse) == SensorError
    ensures Classify(VNum(NaN), VNum(Num(50.0)), DefaultThresholds, parse) == ReadingError
  {
  }

  /** A value sitting exactly on a critical bound is never critical. */
  lemma CriticalBoundIsNotCritical(x: real, hum: Value, b: Thresholds, parse: string -> Option<Float>)
    requires b.tempMinCritical <= b.tempMaxCritical
    requires x == b.tempMinCritical || x == b.tempMaxCritical
    ensures Classify(VNum(Num(x)), hum, b, parse) != CriticalTemperature
  {
  }
}

=== FILE: store.dfy ===
/** The reading collection as the endpoints see it: documents in insertion
    order, the filter `find`/`count_documents` apply, and the newest-first
    ordering `sort('timestamp', -1)` produces. */
module Store {
  import opened Wrappers

  /** A stored `timestamp`: a date (seconds), or some other value stored
      verbatim, which no date range matches and which sorts after every date. */
  datatype Stamp = Date(t: int) | NotADate

  /** One stored document. A missing or null field is `None`. */
  datatype Reading = Reading(temperatura: Option<real>, umidade: Option<real>, stamp: Stamp, status: Option<string>)

  /** The collection handle: `None` at import time when the database was unreachable. */
  datatype Store = Offline | Online(docs: seq<Reading>)

  /** `a` may come before `b` in a newest-first listing. */
  predicate NoEarlier(a: Stamp, b: Stamp) {
    match (a, b)
    case (Date(x), Date(y)) => x >= y
    case (Date(_), NotADate) => true
    case (NotADate, Date(_)) => false
    case (NotADate, NotADate) => true
  }

  predicate NewestFirst(s: seq<Reading>) {
    forall i, j :: 0 <= i < j < |s| ==> NoEarlier(s[i].stamp, s[j].stamp)
  }

  /** Places `x` after every element at least as recent, so equal stamps keep insertion order. */
  function Insert(sorted: seq<Reading>, x: Reading): (r: seq<Reading>)
    ensures multiset(r) == multiset(sorted) + multiset{x}
    decreases |sorted|
  {
    if sorted == [] then [x]
    else if NoEarlier(sorted[|sorted| - 1].stamp, x.stamp) then sorted + [x]
    else
      assert sorted == sorted[..|sorted| - 1] + [sorted[|sorted| - 1]];
      Insert(sorted[..|sorted| - 1], x) + [sorted[|sorted| - 1]]
  }

  /** Every element of `Insert(sorted, x)` is `x` or was already in `sorted`. */
  lemma InsertElements(sorted: seq<Reading>, x: Reading, e: Reading)
    requires e in Insert(sorted, x)
    ensures e in sorted || e == x
  {
    assert e in multiset(Insert(sorted, x));
  }

  lemma {:induction false} InsertKeepsOrder(sorted: seq<Reading>, x: Reading)
    requires NewestFirst(sorted)
    ensures NewestFirst(Insert(sorted, x))
    decreases |sorted|
  {
    if sorted == [] {
    } else if NoEarlier(sorted[|sorted| - 1].stamp, x.stamp) {
      var r := sorted + [x];
      forall i, j | 0 <= i < j < |r| ensures NoEarlier(r[i].stamp, r[j].stamp) {
        if j == |sorted| {
          assert NoEarlier(sorted[i].stamp, sorted[|sorted| - 1].stamp) || i == |sorted| - 1;
        }
      }
    } else {
      var last := sorted[|sorted| - 1];
      var init := sorted[..|sorted| - 1];
      InsertKeepsOrder(init, x);
      var r' := Insert(init, x);
      forall k | 0 <= k < |r'| ensures NoEarlier(r'[k].stamp, last.stamp) {
        InsertElements(init, x, r'[k]);
        if r'[k] != x {
          var m :| 0 <= m < |init| && init[m] == r'[k];
          assert sorted[m] == init[m];
        }
      }
      assert Insert(sorted, x) == r' + [last];
    }
  }

  /** `sort('timestamp', -1)`: a rearrangement of the documents, newest first.
      The store promises nothing about ties; this is one of the orders it may return. */
  function SortNewestFirst(s: seq<Reading>): (r: seq<Reading>)
    ensures NewestFirst(r)
    ensures multiset(r) == multiset(s)
    ensures |r| == |s|
  {
    if s == [] then []
    else
      assert s == s[..|s| - 1] + [s[|s| - 1]];
      InsertKeepsOrder(SortNewestFirst(s[..|s| - 1]), s[|s| - 1]);
      var r := Insert(SortNewestFirst(s[..|s| - 1]), s[|s| - 1]);
      assert |r| == |multiset(r)|;
      r
  }

  /** Two stamps the sort may put in either order. */
  predicate Tie(a: Stamp, b: Stamp) {
    NoEarlier(a, b) && NoEarlier(b, a)
  }

  /** No two documents of `s` tie on `timestamp`, equal copies included: the
      store tells copies apart by `_id`, which a `Reading` does not carry. */
  predicate TieFree(s: seq<Reading>) {
    forall i, j :: 0 <= i < j < |s| ==> !Tie(s[i].stamp, s[j].stamp)
  }

  predicate Distinct(s: seq<Reading>) {
    forall i, j :: 0 <= i < j < |s| ==> s[i] != s[j]
  }

  ghost predicate AtMostOnce(s: seq<Reading>) {
    forall x :: multiset(s)[x] <= 1
  }

  /** A sequence has no repeated element iff its multiset holds each element at most once. */
  lemma {:induction false} DistinctIffAtMostOnce(s: seq<Reading>)
    ensures Distinct(s) <==> AtMostOnce(s)
  {
    if s != [] {
      var h, t := s[0], s[1..];
      assert s == [h] + t;
      DistinctIffAtMostOnce(t);
      assert forall x :: multiset(s)[x] == (if x == h then 1 else 0) + multiset(t)[x];
      if Distinct(s) {
        assert Distinct(t) by {
          forall i, j | 0 <= i < j < |t| ensures t[i] != t[j] {
            assert t[i] == s[i + 1] && t[j] == s[j + 1];
          }
        }
        assert h !in t;
      }
      if AtMostOnce(s) {
        assert AtMostOnce(t) by {
          forall x ensures multiset(t)[x] <= 1 {
            assert multiset(s)[x] <= 1;
          }
        }
        assert multiset(s)[h] <= 1;
        assert h !in multiset(t);
        forall i, j | 0 <= i < j < |s| ensures s[i] != s[j] {
          if i == 0 {
            assert s[j] == t[j - 1];
            assert s[j] in multiset(t);
          } else {
            assert s[i] == t[i - 1] && s[j] == t[j - 1];
          }
        }
      }
    }
  }

  /** Having no ties depends only on which documents there are, not on their order. */
  lemma TieFreePermutation(a: seq<Reading>, b: seq<Reading>)
    requires multiset(a) == multiset(b) && TieFree(a)
    ensures TieFree(b)
  {
    assert Distinct(a) by {
      forall i, j | 0 <= i < j < |a| ensures a[i] != a[j] {
        assert !Tie(a[i].stamp, a[j].stamp);
      }
    }
    DistinctIffAtMostOnce(a);
    DistinctIffAtMostOnce(b);
    assert AtMostOnce(b) by {
      forall x ensures multiset(b)[x] <= 1 {
        assert multiset(a)[x] <= 1;
      }
    }
    forall i, j | 0 <= i < j < |b| ensures !Tie(b[i].stamp, b[j].stamp) {
      assert b[i] in multiset(a) && b[j] in multiset(a);
      var p :| 0 <= p < |a| && a[p] == b[i];
      var q :| 0 <= q < |a| && a[q] == b[j];
      assert p != q;
    }
  }

  /** `o` is an order `sort('timestamp', -1)` may return for the documents `s`. */
  predicate SortedOrderOf(o: seq<Reading>, s: seq<Reading>) {
    NewestFirst(o) && multiset(o) == multiset(s)
  }

  /** Without ties the sort has only one possible result. */
  lemma {:induction false} SortedOrderUnique(a: seq<Reading>, b: seq<Reading>)
    requires NewestFirst(a) && NewestFirst(b) && multiset(a) == multiset(b)
    requires TieFree(a)
    ensures a == b
    decreases |a|
  {
    assert |a| == |multiset(a)| == |multiset(b)| == |b|;
    if a != [] {
      var x, y := a[0], b[0];
      assert x in multiset(b) && y in multiset(a);
      HeadIsNewest(b, x);
      HeadIsNewest(a, y);
      var k :| 0 <= k < |a| && a[k] == y;
      if k > 0 {
        assert !Tie(a[0].stamp, a[k].stamp);
      }
      assert x == y;
      TailFacts(a);
      TailFacts(b);
      assert multiset(a[1..]) == multiset(b[1..]);
      SortedOrderUnique(a[1..], b[1..]);
    }
  }

  /** The first document of a newest-first listing is at least as recent as any other. */
  lemma HeadIsNewest(s: seq<Reading>, x: Reading)
    requires NewestFirst(s) && x in s
    ensures NoEarlier(s[0].stamp, x.stamp)
  {
    var k :| 0 <= k < |s| && s[k] == x;
    if k > 0 {
      assert NoEarlier(s[0].stamp, s[k].stamp);
    }
  }

  /** Dropping the first document keeps the order and the absence of ties. */
  lemma TailFacts(s: seq<Reading>)
    requires s != []
    ensures NewestFirst(s) ==> NewestFirst(s[1..])
    ensures TieFree(s) ==> TieFree(s[1..])
    ensures multiset(s[1..]) == multiset(s) - multiset{s[0]}
  {
    assert s == [s[0]] + s[1..];
    if TieFree(s) {
      forall i, j | 0 <= i < j < |s[1..]| ensures !Tie(s[1..][i].stamp, s[1..][j].stamp) {
        assert s[1..][i] == s[i + 1] && s[1..][j] == s[j + 1];
      }
    }
  }

  /** Two different documents with the same timestamp can be listed either way. */
  lemma TiesHaveTwoOrders(a: Reading, b: Reading)
    requires a != b && a.stamp == b.stamp
    ensures SortedOrderOf([a, b], [a, b]) && SortedOrderOf([b, a], [a, b]) && [a, b] != [b, a]
  {
    assert multiset([b, a]) == multiset([a, b]);
    assert [a, b][0] != [b, a][0];
  }

  /** Two copies of one reading, such as a request sent twice, tie: the store
      may list either copy first, so a sweep may return one twice. */
  lemma CopiesTie(x: Reading)
    ensures !TieFree([x, x])
  {
    assert Tie([x, x][0].stamp, [x, x][1].stamp);
  }

  /** An optional inclusive date range, `$gte` / `$lte` on `timestamp`. */
  datatype Window = Window(start: Option<int>, end: Option<int>)

  const Everything := Window(None, None)

  /** With a bound present only dates match (a range never matches another type). */
  predicate InWindow(r: Reading, w: Window) {
    if w.start.None? && w.end.None? then true
    else
      && r.stamp.Date?
      && (w.start.Some? ==> w.start.value <= r.stamp.t)
      && (w.end.Some? ==> r.stamp.t <= w.end.value)
  }

  /** The documents `keep` accepts, in store order. */
  function Filter(s: seq<Reading>, keep: Reading -> bool): (r: seq<Reading>)
    ensures |r| <= |s|
    ensures forall x :: x in r <==> x in s && keep(x)
    ensures forall i :: 0 <= i < |r| ==> keep(r[i])
    ensures forall x :: multiset(r)[x] == if keep(x) then multiset(s)[x] else 0
  {
    if s == [] then []
    else
      var rest := Filter(s[..|s| - 1], keep);
      assert s == s[..|s| - 1] + [s[|s| - 1]];
      if keep(s[|s| - 1]) then rest + [s[|s| - 1]] else rest
  }

  /** The number of documents `keep` accepts. */
  function Count(s: seq<Reading>, keep: Reading -> bool): (n: nat)
    ensures n <= |s|
    ensures n == |Filter(s, keep)|
  {
    if s == [] then 0
    else Count(s[..|s| - 1], keep) + (if keep(s[|s| - 1]) then 1 else 0)
  }

  /** Appending one document changes a filtered view only by that document. */
  lemma FilterAppend(s: seq<Reading>, x: Reading, keep: Reading -> bool)
    ensures Filter(s + [x], keep) == Filter(s, keep) + (if keep(x) then [x] else [])
  {
    assert (s + [x])[..|s + [x]| - 1] == s;
  }

  /** Filtering keeps store order: what it keeps from an earlier stretch of
      the collection comes before what it keeps from a later one. */
  lemma {:induction false} FilterConcat(a: seq<Reading>, b: seq<Reading>, keep: Reading -> bool)
    ensures Filter(a + b, keep) == Filter(a, keep) + Filter(b, keep)
    decreases |b|
  {
    if b != [] {
      var b' := b[..|b| - 1];
      var x := b[|b| - 1];
      assert b == b' + [x];
      assert a + b == (a + b') + [x];
      FilterConcat(a, b', keep);
      FilterAppend(a + b', x, keep);
      FilterAppend(b', x, keep);
    } else {
      assert a + b == a;
    }
  }
}

=== FILE: validator.dfy ===
/** `validar_dados_sensor` in backend/utils.py: an advisory check that rejects
    in a fixed order and otherwise answers "Dados válidos". */
module SensorValidation {
  import opened Wrappers
  import opened PyValue
  import Config
  import Status

  /** Why a pair of values was rejected; each carries the message's subject. */
  datatype Rejection =
    | NotNumeric
    | TemperatureOutOfRange(temp: Float)
    | HumidityOutOfRange(hum: Float)
    | BothZero

  datatype Verdict = Valid | Invalid(reason: Rejection)

  /** As written: the range checks are `x < lo or x > hi`, which NaN slips
      through (every comparison with NaN is false). */
  function ValidateAsWritten(temp: Value, hum: Value, parse: string -> Option<Float>): (v: Verdict)
    ensures v == Invalid(NotNumeric) <==> ToFloat(temp, parse).Failure? || ToFloat(hum, parse).Failure?
  {
    match (ToFloat(temp, parse), ToFloat(hum, parse))
    case (Success(t), Success(h)) =>
      if Below(t, -50.0) || Above(t, 100.0) then Invalid(TemperatureOutOfRange(t))
      else if Below(h, 0.0) || Above(h, 100.0) then Invalid(HumidityOutOfRange(h))
      else if t == Num(0.0) && h == Num(0.0) then Invalid(BothZero)
      else Valid
    case _ => Invalid(NotNumeric)
  }

  /** Corrected: a value passes a range check only when `lo <= x <= hi`, the
      chained form the ingestion endpoint uses, so NaN is out of range. */
  function Validate(temp: Value, hum: Value, parse: string -> Option<Float>): (v: Verdict)
    ensures v == Valid ==>
              && ToFloat(temp, parse).Success? && Within(ToFloat(temp, parse).value, -50.0, 100.0)
              && ToFloat(hum, parse).Success? && Within(ToFloat(hum, parse).value, 0.0, 100.0)
  {
    match (ToFloat(temp, parse), ToFloat(hum, parse))
    case (Success(t), Success(h)) =>
      if !Within(t, -50.0, 100.0) then Invalid(TemperatureOutOfRange(t))
      else if !Within(h, 0.0, 100.0) then Invalid(HumidityOutOfRange(h))
      else if t == Num(0.0) && h == Num(0.0) then Invalid(BothZero)
      else Valid
    case _ => Invalid(NotNumeric)
  }

  /** The rejections come in a fixed order: non-numeric, temperature range,
      humidity range, then the both-zero rule. Each later reason implies every
      earlier check passed. */
  lemma RejectionOrder(temp: Value, hum: Value, parse: string -> Option<Float>)
    ensures Validate(temp, hum, parse).Invalid? && Validate(temp, hum, parse).reason.TemperatureOutOfRange?
        ==> ToFloat(temp, parse).Success? && ToFloat(hum, parse).Success?
    ensures Validate(temp, hum, parse).Invalid? && Validate(temp, hum, parse).reason.HumidityOutOfRange?
        ==> ToFloat(hum, parse).Success? && ToFloat(temp, parse).Success? && Within(ToFloat(temp, parse).value, -50.0, 100.0)
    ensures Validate(temp, hum, parse) == Invalid(BothZero)
        <==> ToFloat(temp, parse) == Success(Num(0.0)) && ToFloat(hum, parse) == Success(Num(0.0))
  {
  }

  /** A pair is valid exactly when both convert to finite numbers inside the
      physical ranges and they are not both zero. */
  lemma ValidIff(temp: Value, hum: Value, parse: string -> Option<Float>)
    ensures Validate(temp, hum, parse) == Valid
        <==> && ToFloat(temp, parse).Success? && ToFloat(hum, parse).Success?
             && Within(ToFloat(temp, parse).value, -50.0, 100.0)
             && Within(ToFloat(hum, parse).value, 0.0, 100.0)
             && !(ToFloat(temp, parse).value == Num(0.0) && ToFloat(hum, parse).value == Num(0.0))
  {
  }

  /** The two checks agree except on NaN. */
  lemma AsWrittenAgreesWithoutNaN(temp: Value, hum: Value, parse: string -> Option<Float>)
    requires ToFloat(temp, parse) != Success(NaN) && ToFloat(hum, parse) != Success(NaN)
    ensures ValidateAsWritten(temp, hum, parse) == Validate(temp, hum, parse)
  {
  }

  /** A NaN temperature is accepted as written and rejected once corrected. */
  lemma NaNAcceptedAsWritten(parse: string -> Option<Float>)
    ensures ValidateAsWritten(VNum(NaN), VNum(Num(50.0)), parse) == Valid
    ensures Validate(VNum(NaN), VNum(Num(50.0)), parse) == Invalid(TemperatureOutOfRange(NaN))
  {
  }

  /** The batch check and the classifier do not contradict each other: a pair
      the validator accepts is never labelled a sensor or reading error. */
  lemma ValidNeverAnErrorStatus(temp: Value, hum: Value, b: Config.Thresholds, parse: string -> Option<Float>)
    requires Validate(temp, hum, parse) == Valid
    ensures Status.Classify(temp, hum, b, parse) !in {Status.SensorError, Status.ReadingError}
  {
    ValidIff(temp, hum, parse);
    assert !IsNa(temp) && !IsNa(hum);
  }
}

=== FILE: wrappers.dfy ===
/** Option and Result, the two failure-carrying shapes the rest of the model uses
    in place of Python's None and raised exceptions. */
module Wrappers {

  datatype Option<+T> = None | Some(value: T) {
    function GetOr(default: T): T {
      match this
      case Some(v) => v
      case None => default
    }
  }

  datatype Result<+R, +E> = Success(value: R) | Failure(error: E)
}
